=== FILE: README.md ===
# codedot file manager — a Dafny model of its core

codedot is a browser file manager. An Express server lists a base
directory (`/users/leo`) as a JSON tree and serves single files. A React
client shows the tree, opens editable files in a code editor and other
files in a media preview. An alternative storage back end computes
file paths client-side. This project models the parts of that system
that hold logic:

- **The read sandbox of the server** (`Server`, `PosixPath`).
  `GET /api/file` resolves the client's path lexically, with Node's POSIX
  `path.resolve` modelled as a stack machine over `/`-separated parts.
  It then reads the file only when the result starts with the base
  directory, as a raw string prefix. `GET /api/tree` builds the JSON tree
  from an abstract directory listing.
- **Client path arithmetic** (`SupabasePaths`). Create, save-name,
  rename and move compute paths by splitting on and joining with `/`.
- **Filename and MIME classifiers** (`FileExtensions`, `FileManager`,
  `MediaPreview`, `FileIcon`, `CodeEditor`, `MimeTypes`). Their
  agreements and disagreements are proved in `CrossTables`.
- **Small state machines:**
  - the tree's expanded set, create dialog, rename prompt and row
    layout (`FileTree`);
  - the editor's value and dirty flag (`CodeEditor`);
  - the page's selection and content (`FileManager`);
  - the bearer token and its storage mirror (`TokenStore`);
  - the mock login (`LoginForm`);
  - the profile update (`Profile`);
  - the user migration upsert (`MigrateUsers`);
  - the hosting test (`Environment`).

JavaScript's string primitives are modelled where they matter, in
`Strings` (the limits of `toLowerCase` are under "## Left out"):

- `split` always yields at least one part, and `pop` takes the last.
- `toLowerCase` maps ASCII letters only.
- `trim` strips the ECMAScript whitespace set.

Filesystem results, server answers, `localStorage` and the working
directory are parameters.

`server.js:58` tests `startsWith('/users/leo')` on the resolved path,
with no segment boundary after the prefix. The model follows the code
and proves that `/users/leo-evil/x` and `/users/leo2` are read
(`Server.EvilSiblingRead`, `Server.NumberedSiblingRead`,
`Server.SiblingPrefixAdmitted`). It characterises exactly which
resolved paths pass (`Server.AdmitsIff`). The server has no write,
rename, move, delete, upload or quota endpoints.

## Model

| member | source | states |
|---|---|---|
| Server.Decide | server.js:52-60 | A query value that is not one string is refused with "path query parameter required". A string is refused with "invalid path" exactly when its resolved form fails the prefix test. Anything read is the resolved form, which is normal, absolute and starts with `/users/leo`. |
| Server.ApiFile | server.js:52-67 | The answer is 400 exactly when the request is refused, and its error text is the refusal's ("path query parameter required" or "invalid path"). The text is returned only if reading the resolved path succeeded. Any other error is a 500 whose error text is the read failure's message. |
| Server.ReadsOnlyTheResolvedPath | server.js:53-62 | A refused request gives the same response whatever the disk holds, so no read happens. An accepted one depends on the disk only at the resolved path. |
| Server.AdmitsIff | server.js:58 | A resolved path passes the prefix test exactly when its first segment is `users` and its second segment begins with `leo`. |
| Server.FileAccessIff | server.js:57-58 | `/api/file` reads exactly the paths whose resolved segments are `users`, then a name beginning with `leo`, then anything. |
| Server.RenderedAccess | server.js:57-58 | A path written from plain segments resolves to itself, and is read exactly when its segments pass the segment form of the test. |
| Server.ClimbOut | server.js:57 | `/a/b/../name` resolves to the segments `a`, `name`, in every working directory. |
| Server.DotDotEscapeRejected | server.js:57-59 | `/users/leo/../name` is refused with "invalid path" whenever `name` does not begin with `leo` (e.g. `/users/leo/../bob`). |
| Server.SiblingPrefixAdmitted | server.js:58 | Every sibling directory of the base whose name begins with `leo`, and every file in it, is read: the prefix test has no segment boundary. |
| Server.EvilSiblingRead | server.js:58 | `/users/leo-evil/x` is read. |
| Server.NumberedSiblingRead | server.js:58 | `/users/leo2` is read. |
| Server.BaseDirAdmitted | server.js:58 | The base directory itself is read. |
| Server.BaseDirSegments | server.js:8-42 | The base directory is the normal absolute path `users`/`leo`, and its basename is `leo`. |
| Server.BuildTree | server.js:12-34 | The listing succeeds exactly when every directory can be listed and every file stat-ed. It then mirrors the entries in order: directories carry children and no size, files carry their size and no children. Each node's path is its parent's path, `/`, and its name. On failure the error is the message of a failed `readdir` or `stat` in the listing. |
| Server.BuildEntries | server.js:14-32 | The same, for the entries of one directory: success exactly when every entry is readable, and a failure's message comes from one of the entries. |
| Server.ShapedPathsBelow | server.js:15-21 | Every node's path extends the path of the directory it was listed from, and hence the path of every ancestor. |
| Server.ApiTree | server.js:36-50 | On success there is exactly one root, named `leo`, with path `/users/leo`, a directory whose children mirror the listing. Otherwise the answer is a 500 carrying the message of a failed `readdir` or `stat` in the listing. |
| Server.TreePathsInsideBase | server.js:39-45 | Every path in a successful tree is the base directory or lies below `/users/leo/`. |
| PosixPath.Collapse | server.js:57 | Resolving `.`, `..` and empty parts leaves only plain segments. |
| PosixPath.CollapseCanonical | server.js:57 | Plain segments pass through resolution unchanged. |
| PosixPath.Resolve | server.js:57 | The resolved path is normal and absolute, and it renders its segments: it is `/` exactly when no segment remains. |
| PosixPath.ResolveIdempotent | server.js:57 | Resolving a resolved path changes nothing. |
| PosixPath.ResolveRelativeToCwd | server.js:57 | An absolute path ignores the working directory. A relative path resolves as the working directory joined with it. |
| PosixPath.ResolveRendered | server.js:57 | A path written from plain segments resolves to itself. |
| PosixPath.NormalFromSegments | server.js:57 | A normal absolute path is the rendering of its own resolved segments. |
| PosixPath.JoinPath | server.js:15 | Joining a plain entry name onto an absolute directory gives a normal absolute path that is not `/` and whose last segment is the name. Onto a normal directory it is exactly directory, `/`, name. |
| PosixPath.BaseName | server.js:41 | The basename has no `/`. For a normal path other than `/` it is the last segment, which is non-empty. |
| SupabasePaths.ChildPath | src/lib/api-supabase.ts:122 | The new path is the name alone when the parent is empty. Otherwise it starts with parent and `/` and ends with the name, with exactly that length. |
| SupabasePaths.ChildPathSegments | src/lib/api-supabase.ts:141 | For a slash-free name, the new path's segments are the parent's segments followed by the name, and its last segment is the name. |
| SupabasePaths.CreateFileRow | src/lib/api-supabase.ts:118-135 | A created file row has type `file`, empty content and the given name. For a slash-free name, that name is the path's last segment. |
| SupabasePaths.CreateFolderRow | src/lib/api-supabase.ts:137-153 | A created folder row has type `directory` and no content. For a slash-free name, that name is the path's last segment. |
| SupabasePaths.SaveName | src/lib/api-supabase.ts:111 | The saved name is a suffix of the path. Whenever the last `/`-segment is non-empty, the name is exactly that segment. Otherwise the name falls back to the whole path, which happens exactly when the path is empty or ends with `/`. |
| SupabasePaths.SaveNameOfCreated | src/lib/api-supabase.ts:111-122 | Saving a created file stores the name it was created with. |
| SupabasePaths.RenamePath | src/lib/api-supabase.ts:173-175 | The new path ends with the new name. A path of one `/`-part becomes the new name alone; a longer path keeps a slash right before the new name. |
| SupabasePaths.RenameKeepsSlash | src/lib/api-supabase.ts:173-175 | Renaming a path that contains `/` leaves a slash right before the new name. |
| SupabasePaths.RenameSegments | src/lib/api-supabase.ts:173-175 | Renaming replaces the last segment with the new name, whose own slashes are spliced in verbatim as extra segments. |
| SupabasePaths.RenameChangesOnlyLast | src/lib/api-supabase.ts:173-175 | With a slash-free new name, the segment count is kept, every segment but the last is unchanged, and the last becomes the new name. |
| SupabasePaths.RenameTopLevel | src/lib/api-supabase.ts:173-175 | Renaming a slash-free path yields exactly the new name. |
| SupabasePaths.RenameRoundTrip | src/lib/api-supabase.ts:173-175 | Renaming back to the old last segment restores the old path. |
| SupabasePaths.MovePath | src/lib/api-supabase.ts:196-197 | The moved path keeps the basename. It is target, `/`, basename for a non-empty target, and the basename alone otherwise. |
| SupabasePaths.MoveIntoOwnParent | src/lib/api-supabase.ts:196-197 | Moving an item into its own non-empty parent gives back its path. |
| FileExtensions.Extension | src/components/FileManager.tsx:16 | The lower-cased text after the last dot contains no dot and is no longer than the name. |
| FileExtensions.ExtensionOfLast | src/components/FileManager.tsx:16 | For `stem.ext` with a dot-free `ext`, the extension is `ext` lower-cased, whatever the stem holds. |
| FileExtensions.ExtensionDotFree | src/components/FileManager.tsx:16 | A dot-free name is its own extension, lower-cased. |
| FileExtensions.ExtensionCaseInsensitive | src/components/FileManager.tsx:16 | Names equal up to ASCII case have the same extension. |
| FileManager.IsEditableFile | src/components/FileManager.tsx:15-23 | A name is editable exactly when the last `.`-part of its lower-cased form is one of the 21 listed extensions, so lower-casing before or after the split makes no difference. An editable name is never empty. |
| FileManager.EditableByLastExtension | src/components/FileManager.tsx:15-23 | `stem.ext` is editable exactly when `ext`, lower-cased, is one of the 21 listed extensions. |
| FileManager.EditableCaseInsensitive | src/components/FileManager.tsx:16 | Editability ignores ASCII case. |
| FileManager.UpperCaseEditable | src/components/FileManager.tsx:16 | A name ending `.PY` is editable. |
| FileManager.LastExtensionOnly | src/components/FileManager.tsx:16 | `….txt.png` is not editable, while `….png.txt` is. |
| FileManager.PngNotEditable | src/components/FileManager.tsx:15-23 | A name ending `.png` is not editable. |
| FileManager.DotFreeEditable | src/components/FileManager.tsx:16-22 | Files named `md` and `TXT` are editable. |
| FileManager.EmptyNameNotEditable | src/components/FileManager.tsx:22 | The empty name is not editable. |
| FileManager.SelectedFileName | src/components/FileManager.tsx:109 | The displayed name is a slash-free suffix of the selection. It is `""` for no selection and the whole selection when that has no `/`. A normal non-root path gives a non-empty name. |
| FileManager.PaneOf | src/components/FileManager.tsx:141-159 | With no selection the placeholder is shown. An editable name gets the editor, with the loaded content. Any other name gets the preview, with the full path and the content. Both panes receive the displayed name, the selection's last segment. |
| FileManager.LoadTree | src/components/FileManager.tsx:31-44 | A successful tree answer replaces the file system. A failed or missing answer leaves the page unchanged. |
| FileManager.SelectFile | src/components/FileManager.tsx:46-47 | Before the fetch settles, the selection is the clicked path and the old content and tree stay. |
| FileManager.ReceiveFile | src/components/FileManager.tsx:48-59 | When the fetch settles, the content is the body of an ok answer, and `""` after an error status or an exception. The selection is whatever it is by then. |
| FileManager.HandleFileSelect | src/components/FileManager.tsx:46-60 | With nothing in between, the selection becomes the clicked path and the content the answer's body, or `""`. |
| FileManager.SelectShowsOldContent | src/components/FileManager.tsx:47-49 | Between the two halves an editable selection opens the editor on the previous file's text. |
| FileManager.OverlappingSelects | src/components/FileManager.tsx:46-60 | When two fetches settle out of order, the second file stays selected while the first file's body becomes the content. |
| FileManager.SelectThroughServer | src/components/FileManager.tsx:46-60 | Through the server: a refused path and a failed read both leave `""`. A successful read leaves the file's text. |
| FileManager.HandleFileSave | src/components/FileManager.tsx:62-66 | Saving replaces only the content. |
| FileManager.EditorSaveCycle | src/components/FileManager.tsx:62-147 | After the editor saves, the page holds the saved text. The editor, fed that text back, stays open with a clean, consistent state. |
| MediaPreview.GetFileType | src/components/MediaPreview.tsx:11-27 | Each kind is chosen exactly when the extension is in its own list. A name whose extension is in no list is unknown. |
| MediaPreview.ExtensionListsDisjoint | src/components/MediaPreview.tsx:14-24 | The four extension lists are pairwise disjoint, so the order of the tests never matters. |
| MediaPreview.FileTypeByExtension | src/components/MediaPreview.tsx:12 | The kind depends only on the extension. |
| MediaPreview.FileTypeCaseInsensitive | src/components/MediaPreview.tsx:12 | The kind ignores ASCII case. |
| MediaPreview.ReadmeUnknown | src/components/MediaPreview.tsx:26 | A file named `README` is unknown. |
| MediaPreview.SvgIsImage | src/components/MediaPreview.tsx:14 | `.svg` and `.SVG` are images. |
| MediaPreview.WebmIsVideo | src/components/MediaPreview.tsx:17 | `.webm` is a video. |
| FileIcon.GetFileIcon | src/components/FileIcon.tsx:19-22 | The folder icon is shown exactly for directories, whatever their name. |
| FileIcon.IconForExtension | src/components/FileIcon.tsx:26-78 | Each icon is chosen exactly when the extension is among its cases. No extension gives the folder icon. |
| FileIcon.IconOfLastExtension | src/components/FileIcon.tsx:24 | A file's icon is the icon of its last extension, lower-cased. |
| FileIcon.IconCaseInsensitive | src/components/FileIcon.tsx:24 | A file's icon ignores ASCII case. |
| FileIcon.JsonIcon | src/components/FileIcon.tsx:62-63 | `.json` gets the JSON icon, not the code icon. |
| FileIcon.ReadmeIcon | src/components/FileIcon.tsx:65-68 | A file named `README` gets the text icon. |
| FileIcon.IconFallThrough | src/components/FileIcon.tsx:76-77 | `.rb`, `.go`, `.rs` and `.yaml` get the plain file icon. |
| CodeEditor.LanguageForExtension | src/components/CodeEditor.tsx:24-42 | At most one language is chosen, and each exactly for its cases: js/jsx JavaScript with JSX, ts/tsx also TypeScript, html/htm HTML, css/scss/sass CSS, json JSON. Nothing is chosen for any other extension. |
| CodeEditor.GetLanguageExtension | src/components/CodeEditor.tsx:21-43 | At most one language extension. JavaScript always has JSX on. |
| CodeEditor.LanguageOfLastExtension | src/components/CodeEditor.tsx:22 | The language is that of the last extension, lower-cased. |
| CodeEditor.LanguageCaseInsensitive | src/components/CodeEditor.tsx:22 | The language ignores ASCII case. |
| CodeEditor.Mount | src/components/CodeEditor.tsx:46-47 | A new editor shows the content and is clean. |
| CodeEditor.ReceiveProps | src/components/CodeEditor.tsx:50-53 | A change of content or file name resets the value to the content and clears the dirty flag. Unchanged props change nothing. Consistency is preserved. |
| CodeEditor.Edit | src/components/CodeEditor.tsx:134-137 | After any edit the flag is dirty exactly when the value differs from the content. |
| CodeEditor.EditBackIsClean | src/components/CodeEditor.tsx:134-137 | Editing back to the original clears the flag. |
| CodeEditor.SaveButtonOf | src/components/CodeEditor.tsx:110-120 | The button is absent exactly when read-only, and enabled exactly when editable and dirty. |
| CodeEditor.HandleSave | src/components/CodeEditor.tsx:55-57 | Save sends the current value and clears the flag, keeping value, content and name. |
| CodeEditor.ClickSave | src/components/CodeEditor.tsx:110-116 | A click saves exactly when the button is enabled, and then sends the current value. |
| CodeEditor.SaveRoundTrip | src/components/CodeEditor.tsx:50-57 | After a save, the clean flag is out of step with the value until the parent passes the saved text back as the new content. That restores consistency. |
| MimeTypes.IsTextMime | src/lib/utils.ts:14-22 | An accepted MIME string has at least four characters, and one accepted without the `+xml` suffix contains a `/`. |
| MimeTypes.TextMimeStructure | src/lib/utils.ts:14-22 | `type/subtype` is text exactly when the type is `text`, or it is `application/json`, `application/javascript` or `application/xml`, or the subtype ends with `+xml`. Case and parameters count. |
| MimeTypes.TextMimeWithoutSlash | src/lib/utils.ts:14-22 | A string without `/` is text exactly when it ends with `+xml`. |
| MimeTypes.TextMimeExamples | src/lib/utils.ts:16-20 | `image/svg+xml` is text. `Text/plain` and `application/json; charset=utf-8` are not. |
| TokenStore.Load | src/lib/api.ts:47-53 | The initial token is the stored value when it is present and non-empty, else `""`. Storage is untouched. |
| TokenStore.SetToken | src/lib/api.ts:55-61 | After setting, the token read back is the new one. Storage, when it exists, holds it. |
| TokenStore.ClearToken | src/lib/api.ts:61-67 | After clearing, the token read back is `""` and the storage key is removed. |
| TokenStore.SetAndClearKeepMirror | src/lib/api.ts:47-67 | Set and clear keep storage in step with the token. A reload after set sees the token, and after clear sees none. |
| TokenStore.WithoutStorage | src/lib/api.ts:50-67 | Without storage, set, get and clear still work in memory, but a reload starts empty. |
| TokenStore.Headers | src/lib/api.ts:7-178 | Every request but login carries `Authorization: Bearer` with the current token, and none carries another value for it. Exactly the calls with a JSON body carry the JSON content type. |
| TokenStore.ClearedTokenStillSent | src/lib/api.ts:62-76 | After a clear, requests still send `Bearer ` with an empty token. |
| LoginForm.HandleSubmit | src/components/LoginForm.tsx:19-50 | Login succeeds exactly when the username is one of the five keys and the password equals its entry. Success logs in that username. Failure shows the one failure toast. Loading is on during the attempt and off afterwards. |
| LoginForm.FailureIsUniform | src/components/LoginForm.tsx:41-46 | An unknown user and a wrong password give identical results. |
| LoginForm.CaseSensitive | src/components/LoginForm.tsx:35 | `Admin` fails with admin's password, while `admin` succeeds. |
| Profile.BuildPayload | src/pages/Profile.tsx:57-64 | The payload copies username, full name, email and visibility. A new password is sent only when non-empty. The current password is sent exactly when a new one is. |
| Profile.HandleSubmit | src/pages/Profile.tsx:50-78 | A non-empty new password that differs from the confirmation sends nothing and changes nothing. Otherwise the payload is sent. Failure leaves the page unchanged. Success takes the returned profile and clears the three password fields. |
| Profile.TokenOnlyFromAnswer | src/pages/Profile.tsx:69-72 | The token changes exactly when the answer carries a non-empty one, and becomes it. With storage, the username is stored too. |
| Profile.SuccessToast | src/pages/Profile.tsx:69-77 | Success is reported exactly when the update went through and the unguarded username write did not throw. |
| MigrateUsers.MapUser | scripts/migrate-users.js:28-31 | The hash is copied. Falsy email and full name become null. `is_public` is 1 or 0 as the flag is truthy. |
| MigrateUsers.OrNull | scripts/migrate-users.js:29-30 | Only a present, non-empty string survives. |
| MigrateUsers.KeyIsLowerCase | scripts/migrate-users.js:27 | Stored usernames are lower-case, and names equal up to ASCII case share a key. |
| MigrateUsers.Upsert | scripts/migrate-users.js:34-44 | The key is inserted or overwritten with the new row. Every other key keeps its row. |
| MigrateUsers.Stop | scripts/migrate-users.js:26-27 | The first position without a username, or the end of the file. |
| MigrateUsers.MigrateStops | scripts/migrate-users.js:26-49 | The run aborts exactly at the first missing username. It logs exactly the refused positions before it. |
| MigrateUsers.MigrateKeys | scripts/migrate-users.js:26-49 | The table's keys are the old keys plus the keys written before the stop, and nothing else. |
| MigrateUsers.MigrateLastWriter | scripts/migrate-users.js:34-44 | Each written key holds the row of the last user written under it. |
| MigrateUsers.MigrateUntouched | scripts/migrate-users.js:34-44 | A key no user writes keeps its old row. |
| MigrateUsers.CaseCollapse | scripts/migrate-users.js:27-44 | Two users differing only in case leave one row, holding the second user's values. |
| MigrateUsers.FailureSkipsOnlyThatRow | scripts/migrate-users.js:46-48 | A refused row is logged and skipped, and the next user is still written. |
| Environment.IsLovableEnvironment | src/lib/environment.ts:1-12 | False without a window. Otherwise true exactly when the hostname is neither `localhost` nor `127.0.0.1`. |
| Environment.HostedExamples | src/lib/environment.ts:7 | `[::1]` and `localhost.` count as hosted, since equality is exact. |
| FileTree.ToggleExpanded | src/components/FileTree.tsx:65-73 | Toggling flips the membership of exactly the given path. |
| FileTree.ToggleTwice | src/components/FileTree.tsx:65-73 | Toggling twice restores the set. |
| FileTree.OpenCreateDialog | src/components/FileTree.tsx:140-153 | Only a directory opens the dialog, with its path as parent. |
| FileTree.CancelDialog | src/components/FileTree.tsx:207-222 | Closing the dialog keeps the typed name. |
| FileTree.HandleCreate | src/components/FileTree.tsx:75-86 | Nothing happens without a dialog or with an empty or all-whitespace name. Otherwise the file or folder call gets the parent and the trimmed name, and the dialog closes with the name cleared. |
| FileTree.RenameFromPrompt | src/components/FileTree.tsx:169-174 | Rename fires exactly when the answer is not blank and differs from the node's name before trimming. It passes the trimmed answer. |
| FileTree.RenameToSameName | src/components/FileTree.tsx:171-172 | `" "` plus the node's name fires a rename to the same name, while the name itself does not. |
| FileTree.Click | src/components/FileTree.tsx:108-114 | Clicking a directory toggles it. Clicking a file selects its path. |
| FileTree.RowOf | src/components/FileTree.tsx:96-135 | A row is indented by level times 16 plus 8 and highlighted exactly when selected. It shows the folder icon exactly for directories. |
| FileTree.Rows | src/components/FileTree.tsx:189-204 | Every row sits at or below the starting level with the matching indent. |
| FileTree.RowsFromTree | src/components/FileTree.tsx:189-193 | Every row belongs to a node of the tree. |
| FileTree.NothingExpanded | src/components/FileTree.tsx:189-193 | With nothing expanded the rows are exactly the top level, in order. |
| FileTree.TopLevelRows | src/components/FileTree.tsx:204 | Every node of a forest gets its own row at the forest's level. |
| FileTree.ExpandedShowsChildren | src/components/FileTree.tsx:189-193 | An expanded directory with children shows each child one level deeper, indented 16 pixels further. |
| FileTree.CollapsedHidesSubtree | src/components/FileTree.tsx:189 | A node that does not show children (a file, a collapsed directory, or one without a children array) has only its own row. |
| FileTree.NodeThenSubtree | src/components/FileTree.tsx:189-193 | A node's rows are its own row followed by its children's rows one level deeper, exactly when it shows its children. |
| FileTree.RowsAppend | src/components/FileTree.tsx:191-204 | The rows of a forest are the rows of its parts in order: depth first, with no sibling interleaving another's subtree. |
| FileTree.FirstNodeFirst | src/components/FileTree.tsx:191-204 | The first node's rows, its subtree included, come before the rows of its siblings. |
| CrossTables.IconMatchesMediaKind | src/components/FileIcon.tsx:27-46 | The image, video and music icons are shown exactly for the preview's image, video and audio kinds. |
| CrossTables.MediaIsNeverEditable | src/components/MediaPreview.tsx:14-24 | No file with a media kind is editable. |
| CrossTables.CodeIconsAreEditable | src/components/FileIcon.tsx:48-63 | Every file with the code or JSON icon is editable. |
| CrossTables.EditableWithPlainIcon | src/components/FileManager.tsx:17-21 | Editable files with the plain icon are exactly those ending in rb, go, rs, xml, yml or yaml. |
| CrossTables.TextIconNotEditable | src/components/FileIcon.tsx:65-68 | A text-icon file is not editable exactly when its extension is `readme`. |
| CrossTables.HighlightedButNotEditable | src/components/CodeEditor.tsx:31-37 | A name has a highlighter but is not editable exactly when it ends in htm or sass. |
| Strings.Split | src/lib/api-supabase.ts:173 | `split` yields at least one part, and no part holds the separator. |
| Strings.JoinSplit | src/lib/api-supabase.ts:173-175 | Joining the parts of a split restores the string. |
| Strings.SplitJoin | src/lib/api-supabase.ts:173-175 | Splitting a join of separator-free parts restores the parts. |
| Strings.LastSegmentIsSuffix | src/lib/api-supabase.ts:196 | The popped part is a separator-free suffix, preceded by a separator unless it is the whole string. |
| Strings.SplitToLower | src/components/FileManager.tsx:16 | Lower-casing commutes with splitting on a non-letter. |
| Strings.TrimEmptyIff | src/components/FileTree.tsx:76 | `trim` gives `""` exactly for all-whitespace strings. |

## Left out

- Real I/O is not modelled: `fs.readdir`, `fs.stat`, `fs.readFile`, Express routing, CORS and `listen`. The listing and the read outcome are inputs.
- Client-side I/O is not modelled either: `fetch`, `encodeURIComponent`, the Supabase client calls, React rendering and hooks, CodeMirror, toasts, and the login form's half-second delay.
- `localStorage` is a parameter (`TokenStore.Storage`). `process.cwd()` is a parameter required to be absolute.
- Symlinks: `path.resolve` is lexical and follows none. But `fs.readFile` (server.js:62) and `fs.stat` (server.js:24) do follow them, so a link under `/users/leo` is read through to its target. And `Dirent.isDirectory()` (server.js:16) is false for a link to a directory, so such a directory is listed as a file with the target's size. Both are covered only because the read outcome and the listing are free inputs. No property here claims that reads stay inside `/users/leo` on disk. The properties state which path strings reach `readFile`.
- Server.BuildTree: `Promise.all` runs the stats concurrently. The model reports the first failure in listing order, whereas the real error is whichever rejects first.
- PosixPath.JoinPath: only plain entry names are joined. `path.join` with names holding `/`, `.` or `..` is not modelled, because `readdir` never yields them.
- TokenStore.SetToken: `localStorage.setItem` can throw (quota or security errors) after `token = t` has been assigned. The model treats the storage write as always succeeding.
- Strings.ToLower: ASCII letters only. Unicode case mapping (for example the Kelvin sign to `k`) is not modelled. The same goes for every classifier built on it.
- MigrateUsers.MigrateFrom: a database refusal is an input (the set of refused positions), and a row without a password is one such refusal. Non-string, non-boolean JSON values are not modelled.
- LoginForm.HandleSubmit: the typed lookup admits only the five own keys. Prototype properties such as `constructor` are functions, never equal to a typed password, so they fail as unknown users do.
- The FileManager's create, rename, delete and upload toast handlers are not modelled, nor the editor's download. They only show messages or start a download.
- FileTree's upload and delete menu entries are not modelled. They pass the path straight to a callback.
- `detectMimeType` is not modelled: it wraps the `file-type` library.
- Also not modelled: templates.py (filesystem copying), ScrollingText (randomness and timers), SimpleContextMenu (DOM events), use-orientation (a resize listener), and ThemeToggle, spinner, Index, vite.config.ts and the p5js template (constants and layout).
- ResetPassword and ForgotPassword are not modelled. They call `authAPI` functions that `src/lib/api.ts` does not define.

=== FILE: code_editor.dfy ===
/** The code editor panel: the choice of syntax-highlighting extension
    by file name, and the `value`/`isDirty` state the panel keeps beside
    the `content` and `fileName` it is given. CodeMirror itself, the
    theme and the download button are outside the model. */
module CodeEditor {
  import opened Strings
  import opened FileExtensions
  import opened Options

  /** The language packages the editor can load. `JavaScript` carries
      the two options it is configured with. */
  datatype Language = JavaScript(jsx: bool, typescript: bool) | Html | Css | Json

  /** The labels of the `switch`, grouped by the language they select. */
  const JavaScriptCases: seq<string> := ["js", "jsx"]
  const TypeScriptCases: seq<string> := ["ts", "tsx"]
  const HtmlCases: seq<string> := ["html", "htm"]
  const CssCases: seq<string> := ["css", "scss", "sass"]
  const JsonCases: seq<string> := ["json"]

  /** Every label of the `switch`. */
  const LanguageCases: seq<string> := JavaScriptCases + TypeScriptCases + HtmlCases + CssCases + JsonCases

  function LanguageForExtension(extension: string): (langs: seq<Language>)
    ensures |langs| <= 1
    ensures |langs| == 1 <==> extension in LanguageCases
    ensures langs == [JavaScript(true, false)] <==> extension in JavaScriptCases
    ensures langs == [JavaScript(true, true)] <==> extension in TypeScriptCases
    ensures langs == [Html] <==> extension in HtmlCases
    ensures langs == [Css] <==> extension in CssCases
    ensures langs == [Json] <==> extension in JsonCases
  {
    if extension in JavaScriptCases then [JavaScript(true, false)]
    else if extension in TypeScriptCases then [JavaScript(true, true)]
    else if extension in HtmlCases then [Html]
    else if extension in CssCases then [Css]
    else if extension in JsonCases then [Json]
    else []
  }

  /** The language extensions for a file: at most one, and JSX is
      switched on for every JavaScript flavour. */
  function GetLanguageExtension(fileName: string): (langs: seq<Language>)
    ensures |langs| <= 1
    ensures forall i :: 0 <= i < |langs| ==> langs[i].JavaScript? ==> langs[i].jsx
  {
    LanguageForExtension(Extension(fileName))
  }

  /** The choice ignores ASCII case and everything before the last dot. */
  lemma LanguageCaseInsensitive(n: string, m: string)
    requires ToLower(n) == ToLower(m)
    ensures GetLanguageExtension(n) == GetLanguageExtension(m)
  {
    ExtensionCaseInsensitive(n, m);
  }

  lemma LanguageOfLastExtension(stem: string, ext: string)
    requires '.' !in ext
    ensures GetLanguageExtension(stem + "." + ext) == LanguageForExtension(ToLower(ext))
  {
    ExtensionOfLast(stem, ext);
  }

  /** The state of one mounted editor: the props it was last given and
      the two pieces of local state. */
  datatype Editor = Editor(content: string, fileName: string, value: string, dirty: bool)

  /** The flag shows whether the buffer differs from the given content. */
  predicate Consistent(e: Editor) {
    e.dirty <==> e.value != e.content
  }

  /** Mounting starts from the given content, clean. */
  function Mount(content: string, fileName: string): (e: Editor)
    ensures Consistent(e) && !e.dirty
    ensures e.value == e.content == content && e.fileName == fileName
  {
    Editor(content, fileName, content, false)
  }

  /** New props. The effect runs only when `content` or `fileName`
      changed, and then drops the local edits. */
  function ReceiveProps(e: Editor, content: string, fileName: string): (r: Editor)
    ensures r.content == content && r.fileName == fileName
    ensures (content != e.content || fileName != e.fileName) ==> r.value == content && !r.dirty
    ensures (content == e.content && fileName == e.fileName) ==> r == e
    ensures Consistent(e) ==> Consistent(r)
  {
    if content != e.content || fileName != e.fileName then Editor(content, fileName, content, false)
    else e
  }

  /** A change from the editor. The flag compares the new buffer with
      the given content, not with the previous buffer. */
  function Edit(e: Editor, val: string): (r: Editor)
    ensures Consistent(r)
    ensures r.value == val
    ensures r.content == e.content && r.fileName == e.fileName
  {
    e.(value := val, dirty := val != e.content)
  }

  /** What the toolbar shows in place of the Save button. */
  datatype SaveButton = Absent | Disabled | Enabled

  function SaveButtonOf(e: Editor, readOnly: bool): (b: SaveButton)
    ensures b == Absent <==> readOnly
    ensures b == Enabled <==> !readOnly && e.dirty
  {
    if readOnly then Absent
    else if e.dirty then Enabled
    else Disabled
  }

  /** `handleSave`: the current buffer goes to `onSave`, and the flag is
      cleared. */
  datatype Saved = Saved(sent: string, editor: Editor)

  function HandleSave(e: Editor): (r: Saved)
    ensures r.sent == e.value
    ensures !r.editor.dirty
    ensures r.editor.value == e.value
    ensures r.editor.content == e.content && r.editor.fileName == e.fileName
  {
    Saved(e.value, e.(dirty := false))
  }

  /** A click on the toolbar's Save button: only an enabled button
      reaches `handleSave`. */
  function ClickSave(e: Editor, readOnly: bool): (r: Option<Saved>)
    ensures r.Some? <==> SaveButtonOf(e, readOnly) == Enabled
    ensures r.Some? ==> r.value.sent == e.value && !r.value.editor.dirty
  {
    if SaveButtonOf(e, readOnly) == Enabled then Some(HandleSave(e)) else None
  }

  /** Editing the buffer back to the given content clears the flag. */
  lemma EditBackIsClean(e: Editor, val: string)
    ensures !Edit(Edit(e, val), e.content).dirty
    ensures Edit(Edit(e, val), e.content).value == e.content
  {
  }

  /** Saving leaves the flag clear while the buffer still differs from
      the old content. The state is consistent again once the parent
      passes the saved text back as the new content, which is what the
      file manager's save handler does. */
  lemma SaveRoundTrip(e: Editor)
    requires Consistent(e) && e.dirty
    ensures !Consistent(HandleSave(e).editor)
    ensures var s := HandleSave(e);
      var r := ReceiveProps(s.editor, s.sent, e.fileName);
      Consistent(r) && !r.dirty && r.value == e.value && r.content == e.value
  {
  }
}

=== FILE: cross_tables.dfy ===
/** The front end keeps four separate extension tables: the editable
    list of the file manager, the icon switch, the media kinds of the
    preview and the language switch of the editor. These lemmas say
    where the tables agree and where they part. */
module CrossTables {
  import opened FileExtensions
  import FileIcon
  import MediaPreview
  import CodeEditor
  import FileManager

  /** The image, video and music icons are given to exactly the files
      the preview shows as image, video and audio. */
  lemma IconMatchesMediaKind(name: string)
    ensures FileIcon.GetFileIcon(name, false) == FileIcon.Image <==> MediaPreview.GetFileType(name) == MediaPreview.Image
    ensures FileIcon.GetFileIcon(name, false) == FileIcon.Video <==> MediaPreview.GetFileType(name) == MediaPreview.Video
    ensures FileIcon.GetFileIcon(name, false) == FileIcon.Music <==> MediaPreview.GetFileType(name) == MediaPreview.Audio
  {
    assert FileIcon.ImageCases == MediaPreview.ImageExtensions;
    assert FileIcon.VideoCases == MediaPreview.VideoExtensions;
    assert FileIcon.MusicCases == MediaPreview.AudioExtensions;
  }

  /** A file the preview can play or display never opens in the editor,
      so the pane choice of the file manager and the preview's kinds do
      not overlap. */
  lemma MediaIsNeverEditable(name: string)
    ensures MediaPreview.GetFileType(name) != MediaPreview.Unknown ==> !FileManager.IsEditableFile(name)
  {
    var e := Extension(name);
    if e in MediaPreview.ImageExtensions {
      ImageNotEditable(e);
    } else if e in MediaPreview.VideoExtensions {
      VideoNotEditable(e);
    } else if e in MediaPreview.AudioExtensions + MediaPreview.PdfExtensions {
      AudioPdfNotEditable(e);
    }
  }

  lemma ImageNotEditable(e: string)
    requires e in MediaPreview.ImageExtensions
    ensures e !in FileManager.EditableExtensions
  {
    var i :| 0 <= i < 6 && MediaPreview.ImageExtensions[i] == e;
  }

  lemma VideoNotEditable(e: string)
    requires e in MediaPreview.VideoExtensions
    ensures e !in FileManager.EditableExtensions
  {
    var i :| 0 <= i < 5 && MediaPreview.VideoExtensions[i] == e;
  }

  lemma AudioPdfNotEditable(e: string)
    requires e in MediaPreview.AudioExtensions + MediaPreview.PdfExtensions
    ensures e !in FileManager.EditableExtensions
  {
    var i :| 0 <= i < 5 && (MediaPreview.AudioExtensions + MediaPreview.PdfExtensions)[i] == e;
  }

  /** Files with a code or JSON icon all open in the editor. */
  lemma CodeIconsAreEditable(name: string)
    ensures FileIcon.GetFileIcon(name, false) in {FileIcon.Code, FileIcon.FileJson} ==> FileManager.IsEditableFile(name)
  {
  }

  /** Editable files whose icon is the generic one: exactly the
      extensions the icon switch has no label for. */
  lemma EditableWithPlainIcon(name: string)
    ensures FileManager.IsEditableFile(name) && FileIcon.GetFileIcon(name, false) == FileIcon.File
      <==> Extension(name) in PlainEditable
  {
    var e := Extension(name);
    if e in PlainEditable {
      PlainIsEditable(e);
    } else if FileManager.IsEditableFile(name) {
      var i :| 0 <= i < 21 && FileManager.EditableExtensions[i] == e;
      LabelledEditable(i);
    }
  }

  lemma PlainIsEditable(e: string)
    requires e in PlainEditable
    ensures e in FileManager.EditableExtensions
    ensures FileIcon.IconForExtension(e) == FileIcon.File
  {
    PlainHasNoIcon(e);
    var i :| 0 <= i < 6 && PlainEditable[i] == e;
    assert FileManager.EditableExtensions[15 + i] == PlainEditable[i];
  }

  lemma PlainHasNoIcon(e: string)
    requires e in PlainEditable
    ensures FileIcon.IconForExtension(e) == FileIcon.File
  {
  }

  /** The editable extensions the icon switch has no label for. */
  const PlainEditable: seq<string> := ["rb", "go", "rs", "xml", "yml", "yaml"]

  /** The first fifteen editable extensions all have a label; the rest
      are the plain ones. */
  lemma LabelledEditable(i: nat)
    requires i < 21
    ensures i < 15 ==> FileIcon.IconForExtension(FileManager.EditableExtensions[i]) != FileIcon.File
    ensures i >= 15 ==> FileManager.EditableExtensions[i] in PlainEditable
  {
    if i >= 15 {
      assert FileManager.EditableExtensions[i] == PlainEditable[i - 15];
    }
  }

  /** Files with the text icon that do not open in the editor: only
      those whose extension is `readme`, such as a dot-free `README`. */
  lemma TextIconNotEditable(name: string)
    ensures FileIcon.GetFileIcon(name, false) == FileIcon.FileText && !FileManager.IsEditableFile(name)
      <==> Extension(name) == "readme"
  {
  }

  /** The editor has a language for `htm` and `sass`, but such files
      never reach it: they are the only highlighted extensions the file
      manager does not open for editing. */
  lemma HighlightedButNotEditable(name: string)
    ensures CodeEditor.GetLanguageExtension(name) != [] && !FileManager.IsEditableFile(name)
      <==> Extension(name) in ["htm", "sass"]
  {
  }
}

=== FILE: environment.dfy ===
/** `isLovableEnvironment`: whether the page runs on the hosted preview
    rather than against the local server. The browser's hostname is a
    parameter; `None` stands for "no `window`", as when rendering
    outside a browser. */
module Environment {
  import opened Options

  const LocalHostnames: seq<string> := ["localhost", "127.0.0.1"]

  function IsLovableEnvironment(hostname: Option<string>): (hosted: bool)
    ensures hostname.None? ==> !hosted
    ensures hostname.Some? ==> (hosted <==> hostname.value !in LocalHostnames)
  {
    match hostname
    case None => false
    case Some(h) => !(h == "localhost" || h == "127.0.0.1")
  }

  /** Matching is exact: the IPv6 loopback and a fully qualified
      `localhost.` count as hosted. */
  lemma HostedExamples(v6: string, dotted: string)
    requires v6 == "[::1]" && dotted == "localhost."
    ensures IsLovableEnvironment(Some(v6))
    ensures IsLovableEnvironment(Some(dotted))
  {
    assert v6 != "localhost" && v6 != "127.0.0.1" by { assert v6[0] == '['; }
    assert dotted != "localhost" by { assert |dotted| == 10; }
    assert dotted != "127.0.0.1" by { assert dotted[0] == 'l'; }
  }
}

=== FILE: file_extensions.dfy ===
/** The extension test every classifier of the front end shares:
    `fileName.split('.').pop()?.toLowerCase()`. The split list is never
    empty, so the extension is the lower-cased text after the last dot,
    or the whole lower-cased name when it has no dot. */
module FileExtensions {
  import opened Strings

  function Extension(fileName: string): (ext: string)
    ensures '.' !in ext
    ensures |ext| <= |fileName|
  {
    LastSegmentIsSuffix(fileName, '.');
    var last := LastSegment(fileName, '.');
    assert forall i :: 0 <= i < |last| ==> ToLower(last)[i] == LowerChar(last[i]) != '.';
    ToLower(last)
  }

  /** Names that agree up to ASCII case have the same extension. */
  lemma ExtensionCaseInsensitive(n: string, m: string)
    requires ToLower(n) == ToLower(m)
    ensures Extension(n) == Extension(m)
  {
    LastSegmentToLower(n, '.');
    LastSegmentToLower(m, '.');
  }

  /** Only the text after the last dot counts. */
  lemma ExtensionOfLast(stem: string, ext: string)
    requires '.' !in ext
    ensures Extension(stem + "." + ext) == ToLower(ext)
  {
    LastSegmentAfterSep(stem, '.', ext);
    LastSegmentSepFree(ext, '.');
  }

  /** A name without a dot is its own extension, lower-cased. */
  lemma ExtensionDotFree(name: string)
    requires '.' !in name
    ensures Extension(name) == ToLower(name)
  {
    LastSegmentSepFree(name, '.');
  }
}

=== FILE: file_icon.dfy ===
/** `getFileIcon`: the icon of a tree entry. Directories always get the
    folder icon; files are classified by their lower-cased last
    extension, as in the `switch` of the component. */
module FileIcon {
  import opened Strings
  import opened FileExtensions

  datatype Icon = File | Folder | Image | Video | Music | FileText | Code | Archive | FileJson

  const ImageCases: seq<string> := ["jpg", "jpeg", "png", "gif", "webp", "svg"]
  const VideoCases: seq<string> := ["mp4", "avi", "mov", "mkv", "webm"]
  const MusicCases: seq<string> := ["mp3", "wav", "flac", "ogg"]
  const CodeCases: seq<string> := ["js", "ts", "jsx", "tsx", "html", "css", "scss", "py", "java", "cpp", "c", "php"]
  const JsonCases: seq<string> := ["json"]
  const TextCases: seq<string> := ["txt", "md", "readme"]
  const ArchiveCases: seq<string> := ["zip", "rar", "tar", "gz"]

  /** The case groups of the `switch` share no label, so each icon is
      chosen exactly when the extension is one of its labels. */
  function IconForExtension(extension: string): (icon: Icon)
    ensures icon == Image <==> extension in ImageCases
    ensures icon == Video <==> extension in VideoCases
    ensures icon == Music <==> extension in MusicCases
    ensures icon == Code <==> extension in CodeCases
    ensures icon == FileJson <==> extension in JsonCases
    ensures icon == FileText <==> extension in TextCases
    ensures icon == Archive <==> extension in ArchiveCases
    ensures icon != Folder
  {
    if extension in ImageCases then Image
    else if extension in VideoCases then Video
    else if extension in MusicCases then Music
    else if extension in CodeCases then Code
    else if extension in JsonCases then FileJson
    else if extension in TextCases then FileText
    else if extension in ArchiveCases then Archive
    else File
  }

  /** A directory gets `Folder` whatever its name; a file never does, and
      its icon depends only on its extension. */
  function GetFileIcon(fileName: string, isDirectory: bool): (icon: Icon)
    ensures isDirectory <==> icon == Folder
  {
    if isDirectory then Folder
    else IconForExtension(Extension(fileName))
  }

  /** File icons ignore ASCII case and everything before the last dot. */
  lemma IconCaseInsensitive(n: string, m: string)
    requires ToLower(n) == ToLower(m)
    ensures GetFileIcon(n, false) == GetFileIcon(m, false)
  {
    ExtensionCaseInsensitive(n, m);
  }

  lemma IconOfLastExtension(stem: string, ext: string)
    requires '.' !in ext
    ensures GetFileIcon(stem + "." + ext, false) == IconForExtension(ToLower(ext))
  {
    ExtensionOfLast(stem, ext);
  }

  /** `json` has its own icon rather than `Code`. */
  lemma JsonIcon(stem: string)
    ensures GetFileIcon(stem + ".json", false) == FileJson
  {
    IconOfLastExtension(stem, "json");
    assert stem + "." + "json" == stem + ".json";
    JsonLabel("json");
  }

  lemma JsonLabel(json: string)
    requires json == "json"
    ensures IconForExtension(ToLower(json)) == FileJson
  {
    assert ToLower(json) == json;
  }

  /** A dot-free `README` is shown as text through the `readme` label. */
  lemma ReadmeIcon(readme: string)
    requires readme == "README"
    ensures GetFileIcon(readme, false) == FileText
  {
    ExtensionDotFree(readme);
    assert ToLower(readme) == "readme" == TextCases[2];
  }

  /** `rb`, `go`, `rs` and `yaml` have no label and fall through to the
      generic `File`. */
  lemma IconFallThrough(stem: string, ext: string)
    requires ext == "rb" || ext == "go" || ext == "rs" || ext == "yaml"
    ensures GetFileIcon(stem + "." + ext, false) == File
  {
    assert ToLower(ext) == ext;
    assert IconForExtension(ext) == File;
    IconOfLastExtension(stem, ext);
  }
}

=== FILE: file_manager.dfy ===
/** The file manager page: which files open in the editor, the name of
    the selected file, what the right-hand pane shows, and how the page
    state follows the answers of the two server endpoints. */
module FileManager {
  import opened Strings
  import opened Options
  import opened FileExtensions
  import opened TreeNodes
  import opened PosixPath
  import Server
  import CodeEditor

  /** The 21 extensions `isEditableFile` accepts. */
  const EditableExtensions: seq<string> := [
    "txt", "md", "json", "js", "jsx", "ts", "tsx",
    "html", "css", "scss", "py", "java", "cpp", "c",
    "php", "rb", "go", "rs", "xml", "yml", "yaml"
  ]

  /** A name is editable when its lower-cased last extension is listed.
      The empty name has the empty extension, which is not listed. */
  predicate IsEditableFile(fileName: string): (editable: bool)
    ensures editable <==> LastSegment(ToLower(fileName), '.') in EditableExtensions
    ensures editable ==> fileName != ""
  {
    LastSegmentToLower(fileName, '.');
    Extension(fileName) in EditableExtensions
  }

  lemma EditableCaseInsensitive(n: string, m: string)
    requires ToLower(n) == ToLower(m)
    ensures IsEditableFile(n) <==> IsEditableFile(m)
  {
    ExtensionCaseInsensitive(n, m);
  }

  /** Only the text after the last dot decides, whatever the stem. */
  lemma EditableByLastExtension(stem: string, ext: string)
    requires '.' !in ext
    ensures IsEditableFile(stem + "." + ext) <==> ToLower(ext) in EditableExtensions
  {
    ExtensionOfLast(stem, ext);
  }

  /** `MAIN.PY` is editable: the extension is lower-cased first. */
  lemma UpperCaseEditable(stem: string)
    ensures IsEditableFile(stem + ".PY")
  {
    EditableByLastExtension(stem, "PY");
    assert stem + "." + "PY" == stem + ".PY";
    assert ToLower("PY") == "py" == EditableExtensions[10];
  }

  /** `a.txt.png` is not editable, while `a.png.txt` is. */
  lemma LastExtensionOnly(stem: string)
    ensures !IsEditableFile(stem + ".txt" + ".png")
    ensures IsEditableFile(stem + ".png" + ".txt")
  {
    PngNotEditable(stem + ".txt");
    EditableByLastExtension(stem + ".png", "txt");
    assert stem + ".png" + "." + "txt" == stem + ".png" + ".txt";
    assert ToLower("txt") == "txt" == EditableExtensions[0];
  }

  lemma PngNotEditable(stem: string)
    ensures !IsEditableFile(stem + ".png")
  {
    EditableByLastExtension(stem, "png");
    assert stem + "." + "png" == stem + ".png";
    assert ToLower("png") == "png";
  }

  /** A dot-free name is its own extension: `md` and `TXT` are
      editable... */
  lemma DotFreeEditable(md: string, txt: string)
    requires md == "md" && txt == "TXT"
    ensures IsEditableFile(md) && IsEditableFile(txt)
  {
    ExtensionDotFree(md);
    assert ToLower(md) == "md" == EditableExtensions[1];
    ExtensionDotFree(txt);
    assert ToLower(txt) == "txt" == EditableExtensions[0];
  }

  /** ...and the empty name is not. */
  lemma EmptyNameNotEditable()
    ensures !IsEditableFile("")
  {
    ExtensionDotFree("");
  }

  /** `selectedFileName`: the last `/`-segment of the selection. */
  function SelectedFileName(selectedFile: string): (name: string)
    ensures '/' !in name
    ensures EndsWith(selectedFile, name)
    ensures selectedFile == "" ==> name == ""
    ensures '/' !in selectedFile ==> name == selectedFile
    ensures IsNormalAbsolute(selectedFile) && selectedFile != "/" ==> name != ""
  {
    SelectedFileNameFacts(selectedFile);
    LastSegment(selectedFile, '/')
  }

  lemma SelectedFileNameFacts(selectedFile: string)
    ensures '/' !in selectedFile ==> LastSegment(selectedFile, '/') == selectedFile
    ensures '/' !in LastSegment(selectedFile, '/') && EndsWith(selectedFile, LastSegment(selectedFile, '/'))
    ensures IsNormalAbsolute(selectedFile) && selectedFile != "/" ==> LastSegment(selectedFile, '/') != ""
  {
    LastSegmentIsSuffix(selectedFile, '/');
    NormalLastSegment(selectedFile);
    if '/' !in selectedFile {
      LastSegmentSepFree(selectedFile, '/');
    }
  }

  /** The state the page keeps. */
  datatype Page = Page(fileSystem: seq<Node>, selectedFile: string, fileContent: string)

  const Initial: Page := Page([], "", "")

  /** What the right-hand pane shows. */
  datatype Pane =
    | Placeholder
    | EditorPane(content: string, fileName: string)
    | PreviewPane(fileName: string, filePath: string, content: string)

  function PaneOf(p: Page): (pane: Pane)
    ensures pane.Placeholder? <==> p.selectedFile == ""
    ensures pane.EditorPane? <==> p.selectedFile != "" && IsEditableFile(SelectedFileName(p.selectedFile))
    ensures pane.EditorPane? ==> pane.content == p.fileContent && '/' !in pane.fileName
    ensures pane.PreviewPane? ==> pane.filePath == p.selectedFile && pane.content == p.fileContent
    ensures !pane.Placeholder? ==> pane.fileName == SelectedFileName(p.selectedFile)
  {
    var name := SelectedFileName(p.selectedFile);
    if p.selectedFile == "" then Placeholder
    else if IsEditableFile(name) then EditorPane(p.fileContent, name)
    else PreviewPane(name, p.selectedFile, p.fileContent)
  }

  /** The tree loader: only a successful answer replaces the tree; an
      error status or a thrown fetch (`None`) leaves it as it was. */
  function LoadTree(p: Page, answer: Option<Server.TreeResponse>): (r: Page)
    ensures r.selectedFile == p.selectedFile && r.fileContent == p.fileContent
    ensures answer.Some? && answer.value.TreeJson? ==> r.fileSystem == answer.value.roots
    ensures !(answer.Some? && answer.value.TreeJson?) ==> r == p
  {
    if answer.Some? && answer.value.TreeJson? then p.(fileSystem := answer.value.roots) else p
  }

  /** The first half of `handleFileSelect`, before its `await`: the
      selection changes at once and the old content stays. */
  function SelectFile(p: Page, filePath: string): (r: Page)
    ensures r.selectedFile == filePath
    ensures r.fileContent == p.fileContent && r.fileSystem == p.fileSystem
  {
    p.(selectedFile := filePath)
  }

  /** The second half, when the fetch settles: the content becomes the
      body of an ok answer, and `""` after an error status or a thrown
      fetch (`None`). It sets the content whatever is selected by then. */
  function ReceiveFile(p: Page, answer: Option<Server.Response>): (r: Page)
    ensures r.selectedFile == p.selectedFile && r.fileSystem == p.fileSystem
    ensures answer.Some? && answer.value.PlainText? ==> r.fileContent == answer.value.body
    ensures !(answer.Some? && answer.value.PlainText?) ==> r.fileContent == ""
  {
    var content := if answer.Some? && answer.value.PlainText? then answer.value.body else "";
    p.(fileContent := content)
  }

  /** `handleFileSelect` when nothing else happens between its two
      halves. */
  function HandleFileSelect(p: Page, filePath: string, answer: Option<Server.Response>): (r: Page)
    ensures r.selectedFile == filePath && r.fileSystem == p.fileSystem
    ensures answer.Some? && answer.value.PlainText? ==> r.fileContent == answer.value.body
    ensures !(answer.Some? && answer.value.PlainText?) ==> r.fileContent == ""
  {
    ReceiveFile(SelectFile(p, filePath), answer)
  }

  /** Between the two halves the page renders the new name with the
      previous file's content: an editable selection opens the editor on
      the old text. */
  lemma SelectShowsOldContent(p: Page, filePath: string)
    requires filePath != "" && IsEditableFile(SelectedFileName(filePath))
    ensures PaneOf(SelectFile(p, filePath)) == EditorPane(p.fileContent, SelectedFileName(filePath))
  {
  }

  /** Two selects whose fetches settle out of order: the second file
      stays selected, but the content is the first file's body. */
  lemma OverlappingSelects(p: Page, first: string, second: string, firstBody: string, secondBody: string)
    ensures var q := SelectFile(SelectFile(p, first), second);
      var r := ReceiveFile(ReceiveFile(q, Some(Server.PlainText(secondBody))), Some(Server.PlainText(firstBody)));
      r.selectedFile == second && r.fileContent == firstBody
  {
  }

  /** `handleFileSave`: the saved text becomes the page's content. */
  function HandleFileSave(p: Page, content: string): (r: Page)
    ensures r.fileContent == content
    ensures r.selectedFile == p.selectedFile && r.fileSystem == p.fileSystem
  {
    p.(fileContent := content)
  }

  /** Selecting a file through the file endpoint: the page shows the
      bytes read at the resolved path when the server admits the path
      and the read succeeds, and empty content in every other case, in
      particular whenever the server rejects the path. */
  lemma SelectThroughServer(cwd: string, p: Page, filePath: string, read: string -> Server.ReadOutcome)
    requires IsAbsolute(cwd)
    ensures var r := HandleFileSelect(p, filePath, Some(Server.ApiFile(cwd, Server.Text(filePath), read)));
      var a := Server.Decide(cwd, Server.Text(filePath));
      && (a.Rejected? ==> r.fileContent == "")
      && (a.ReadAt? && read(a.path).Contents? ==> r.fileContent == read(a.path).text)
      && (a.ReadAt? && read(a.path).ReadFailed? ==> r.fileContent == "")
  {
    var a := Server.Decide(cwd, Server.Text(filePath));
    var resp := Server.ApiFile(cwd, Server.Text(filePath), read);
    if a.ReadAt? && read(a.path).Contents? {
      assert resp.PlainText?;
    }
  }

  /** A save from the editor pane, followed by the page passing the
      saved text back as the editor's content, leaves the editor clean
      with the saved buffer, and the page holds that buffer. */
  lemma EditorSaveCycle(p: Page, e: CodeEditor.Editor)
    requires PaneOf(p) == EditorPane(e.content, e.fileName)
    requires CodeEditor.Consistent(e) && e.dirty
    ensures var s := CodeEditor.HandleSave(e);
      var q := HandleFileSave(p, s.sent);
      var e' := CodeEditor.ReceiveProps(s.editor, PaneOf(q).content, PaneOf(q).fileName);
      && PaneOf(q).EditorPane?
      && q.fileContent == e.value
      && CodeEditor.Consistent(e') && !e'.dirty && e'.value == e.value
  {
    var s := CodeEditor.HandleSave(e);
    var q := HandleFileSave(p, s.sent);
    assert PaneOf(q) == EditorPane(e.value, e.fileName);
  }
}

=== FILE: file_tree.dfy ===
/** The file tree component: the set of expanded directories, the
    create dialog, the rename prompt, clicks, and the rows it renders.
    The callbacks it receives are recorded as `Call` values instead of
    being run. */
module FileTree {
  import opened Strings
  import opened Options
  import opened TreeNodes
  import FileIcon

  /** `toggleExpanded`: exactly the membership of `p` flips. */
  function ToggleExpanded(expanded: set<string>, p: string): (r: set<string>)
    ensures p in r <==> p !in expanded
    ensures forall q :: q != p ==> (q in r <==> q in expanded)
  {
    if p in expanded then expanded - {p} else expanded + {p}
  }

  lemma ToggleTwice(expanded: set<string>, p: string)
    ensures ToggleExpanded(ToggleExpanded(expanded, p), p) == expanded
  {
  }

  datatype Kind = NewFile | NewFolder

  datatype Dialog = Dialog(kind: Kind, parentPath: string)

  datatype State = State(expanded: set<string>, dialog: Option<Dialog>, newItemName: string)

  const Initial: State := State({}, None, "")

  /** The callbacks the tree invokes on its parent. */
  datatype Call =
    | CreateFile(parentPath: string, name: string)
    | CreateFolder(parentPath: string, name: string)
    | Rename(path: string, newName: string)
    | Select(path: string)

  datatype Step = Step(state: State, call: Option<Call>)

  /** The context menu of a directory opens the dialog for it; files
      have no create entries. The typed name is kept. */
  function OpenCreateDialog(s: State, node: Node, kind: Kind): (r: State)
    ensures node.isDirectory ==> r == s.(dialog := Some(Dialog(kind, node.path)))
    ensures !node.isDirectory ==> r == s
  {
    if node.isDirectory then s.(dialog := Some(Dialog(kind, node.path))) else s
  }

  /** Cancel, or dismissing the dialog: it closes, but the typed name is
      not cleared. */
  function CancelDialog(s: State): (r: State)
    ensures r.dialog.None? && r.newItemName == s.newItemName && r.expanded == s.expanded
  {
    s.(dialog := None)
  }

  /** `handleCreate`: nothing happens without an open dialog or with a
      blank name; otherwise the trimmed name goes to the callback of the
      dialog's kind, and the dialog closes with the name cleared. */
  function HandleCreate(s: State): (r: Step)
    ensures r.call.None? <==> s.dialog.None? || AllWhitespace(s.newItemName)
    ensures r.call.None? ==> r.state == s
    ensures r.call.Some? ==> r.state == State(s.expanded, None, "")
    ensures r.call.Some? && s.dialog.value.kind == NewFile ==>
      r.call.value == CreateFile(s.dialog.value.parentPath, Trim(s.newItemName))
    ensures r.call.Some? && s.dialog.value.kind == NewFolder ==>
      r.call.value == CreateFolder(s.dialog.value.parentPath, Trim(s.newItemName))
    ensures r.call.Some? ==> Trim(s.newItemName) != "" && !IsJsWhitespace(Trim(s.newItemName)[0])
  {
    TrimEmptyIff(s.newItemName);
    if s.dialog.None? || Trim(s.newItemName) == "" then Step(s, None)
    else
      var name := Trim(s.newItemName);
      var call := if s.dialog.value.kind == NewFile then CreateFile(s.dialog.value.parentPath, name)
                  else CreateFolder(s.dialog.value.parentPath, name);
      Step(State(s.expanded, None, ""), Some(call))
  }

  /** The rename entry: `answer` is what the prompt returned (`None` on
      cancel). It fires when the answer is not blank and differs from
      the current name BEFORE trimming, and passes the trimmed answer. */
  function RenameFromPrompt(node: Node, answer: Option<string>): (r: Option<Call>)
    ensures r.Some? <==> answer.Some? && !AllWhitespace(answer.value) && answer.value != node.name
    ensures r.Some? ==> r.value == Rename(node.path, Trim(answer.value))
  {
    if answer.Some? && answer.value != "" && Trim(answer.value) != "" && answer.value != node.name then
      Some(Rename(node.path, Trim(answer.value)))
    else
      TrimEmptyIff(if answer.Some? then answer.value else "");
      None
  }

  lemma TrimLeadingSpace(w: string)
    requires w != "" && !IsJsWhitespace(w[0]) && !IsJsWhitespace(w[|w| - 1])
    ensures Trim(" " + w) == w
  {
    assert (" " + w)[1..] == w;
    assert TrimStart(" " + w) == TrimStart(w) == w;
  }

  /** Because the comparison happens before trimming, a leading space
      typed in front of the unchanged name still renames, to the very
      same name. */
  lemma RenameToSameName(node: Node)
    requires node.name != "" && !IsJsWhitespace(node.name[0]) && !IsJsWhitespace(node.name[|node.name| - 1])
    ensures RenameFromPrompt(node, Some(" " + node.name)) == Some(Rename(node.path, node.name))
    ensures RenameFromPrompt(node, Some(node.name)).None?
  {
    TrimLeadingSpace(node.name);
    assert " " + node.name != node.name by { assert |" " + node.name| != |node.name|; }
  }

  /** A click on a row: a directory toggles, a file is selected. */
  function Click(s: State, node: Node): (r: Step)
    ensures node.isDirectory ==> r.call.None? && r.state == s.(expanded := ToggleExpanded(s.expanded, node.path))
    ensures !node.isDirectory ==> r.call == Some(Select(node.path)) && r.state == s
  {
    if node.isDirectory then Step(s.(expanded := ToggleExpanded(s.expanded, node.path)), None)
    else Step(s, Some(Select(node.path)))
  }

  /** One rendered row. */
  datatype Row = Row(
    path: string, name: string, level: nat, paddingLeft: nat,
    selected: bool, open: bool, icon: FileIcon.Icon)

  function Indent(level: nat): nat {
    level * 16 + 8
  }

  function RowOf(node: Node, level: nat, expanded: set<string>, selectedFile: Option<string>): (r: Row)
    ensures r.path == node.path && r.level == level && r.paddingLeft == Indent(level)
    ensures r.selected <==> selectedFile == Some(node.path)
    ensures node.isDirectory <==> r.icon == FileIcon.Folder
  {
    Row(node.path, node.name, level, Indent(level), selectedFile == Some(node.path),
        node.path in expanded, FileIcon.GetFileIcon(node.name, node.isDirectory))
  }

  /** A directory shows its children only when it is expanded and has a
      `children` array. */
  predicate ShowsChildren(node: Node, expanded: set<string>) {
    node.isDirectory && node.path in expanded && node.children.Children?
  }

  /** `renderNode` over a forest, depth first, starting at `level`. */
  function Rows(nodes: seq<Node>, level: nat, expanded: set<string>, selectedFile: Option<string>): (rows: seq<Row>)
    ensures |rows| >= |nodes|
    ensures forall i :: 0 <= i < |rows| ==> rows[i].level >= level && rows[i].paddingLeft == Indent(rows[i].level)
    decreases nodes
  {
    if |nodes| == 0 then []
    else
      [RowOf(nodes[0], level, expanded, selectedFile)]
      + (if ShowsChildren(nodes[0], expanded) then Rows(nodes[0].children.items, level + 1, expanded, selectedFile) else [])
      + Rows(nodes[1..], level, expanded, selectedFile)
  }

  /** Every rendered row belongs to a node of the tree. */
  lemma {:induction false} RowsFromTree(nodes: seq<Node>, level: nat, expanded: set<string>, selectedFile: Option<string>)
    ensures forall r :: r in Rows(nodes, level, expanded, selectedFile) ==> r.path in Paths(nodes)
    decreases nodes
  {
    if |nodes| > 0 {
      if ShowsChildren(nodes[0], expanded) {
        RowsFromTree(nodes[0].children.items, level + 1, expanded, selectedFile);
      }
      RowsFromTree(nodes[1..], level, expanded, selectedFile);
    }
  }

  /** Rows deeper than the starting level come only from expanded
      directories: with nothing expanded, the rows are exactly the top
      level, in order. */
  lemma {:induction false} NothingExpanded(nodes: seq<Node>, level: nat, selectedFile: Option<string>)
    ensures |Rows(nodes, level, {}, selectedFile)| == |nodes|
    ensures forall i :: 0 <= i < |nodes| ==>
      Rows(nodes, level, {}, selectedFile)[i] == RowOf(nodes[i], level, {}, selectedFile)
    decreases nodes
  {
    if |nodes| > 0 {
      NothingExpanded(nodes[1..], level, selectedFile);
    }
  }

  /** Every node of a forest has its own row at the forest's level. */
  lemma {:induction false} TopLevelRows(nodes: seq<Node>, level: nat, expanded: set<string>, selectedFile: Option<string>)
    ensures forall i :: 0 <= i < |nodes| ==>
      RowOf(nodes[i], level, expanded, selectedFile) in Rows(nodes, level, expanded, selectedFile)
    decreases nodes
  {
    if |nodes| > 0 {
      TopLevelRows(nodes[1..], level, expanded, selectedFile);
      forall i | 1 <= i < |nodes|
        ensures RowOf(nodes[i], level, expanded, selectedFile) in Rows(nodes, level, expanded, selectedFile)
      {
        assert nodes[1..][i - 1] == nodes[i];
      }
    }
  }

  /** An expanded directory shows each of its children one level deeper,
      indented by a further 16 pixels. */
  lemma ExpandedShowsChildren(node: Node, level: nat, expanded: set<string>, selectedFile: Option<string>)
    requires ShowsChildren(node, expanded)
    ensures forall c :: c in node.children.items ==>
      RowOf(c, level + 1, expanded, selectedFile) in Rows([node], level, expanded, selectedFile)
    ensures forall c :: c in node.children.items ==>
      RowOf(c, level + 1, expanded, selectedFile).paddingLeft == Indent(level) + 16
  {
    var kids := node.children.items;
    TopLevelRows(kids, level + 1, expanded, selectedFile);
    assert [node][1..] == [];
    forall c | c in kids
      ensures RowOf(c, level + 1, expanded, selectedFile) in Rows([node], level, expanded, selectedFile)
    {
      var i :| 0 <= i < |kids| && kids[i] == c;
    }
  }

  /** A node that does not show its children (a file, a collapsed
      directory, or a directory without a `children` array) has only its
      own row. */
  lemma CollapsedHidesSubtree(node: Node, level: nat, expanded: set<string>, selectedFile: Option<string>)
    requires !ShowsChildren(node, expanded)
    ensures Rows([node], level, expanded, selectedFile) == [RowOf(node, level, expanded, selectedFile)]
  {
    assert [node][1..] == [];
  }

  /** Depth-first order: a node's row, then its whole subtree when it
      shows its children, before anything that follows it. */
  lemma NodeThenSubtree(node: Node, level: nat, expanded: set<string>, selectedFile: Option<string>)
    ensures Rows([node], level, expanded, selectedFile)
      == [RowOf(node, level, expanded, selectedFile)]
         + (if ShowsChildren(node, expanded) then Rows(node.children.items, level + 1, expanded, selectedFile) else [])
  {
    assert [node][1..] == [];
  }

  /** The rows of a forest are the rows of its parts, in order: siblings
      never interleave with one another's subtrees. */
  lemma {:induction false} RowsAppend(a: seq<Node>, b: seq<Node>, level: nat, expanded: set<string>, selectedFile: Option<string>)
    ensures Rows(a + b, level, expanded, selectedFile)
      == Rows(a, level, expanded, selectedFile) + Rows(b, level, expanded, selectedFile)
    decreases a
  {
    if |a| == 0 {
      assert a + b == b;
    } else {
      assert (a + b)[0] == a[0];
      assert (a + b)[1..] == a[1..] + b;
      RowsAppend(a[1..], b, level, expanded, selectedFile);
    }
  }

  /** In particular the first node's rows come first. */
  lemma FirstNodeFirst(nodes: seq<Node>, level: nat, expanded: set<string>, selectedFile: Option<string>)
    requires |nodes| > 0
    ensures Rows(nodes, level, expanded, selectedFile)
      == Rows([nodes[0]], level, expanded, selectedFile) + Rows(nodes[1..], level, expanded, selectedFile)
  {
    assert nodes == [nodes[0]] + nodes[1..];
    RowsAppend([nodes[0]], nodes[1..], level, expanded, selectedFile);
  }
}

=== FILE: login_form.dfy ===
/** The login form's development check against a fixed table of users.
    The half-second delay and the toast rendering are not modelled; the
    toast is kept as its title, description and variant. */
module LoginForm {
  import opened Options

  const MockUsers: map<string, string> := map[
    "admin" := "password123",
    "user1" := "pass1",
    "user2" := "pass2",
    "developer" := "devpass",
    "tester" := "testpass"
  ]

  datatype Toast = Toast(title: string, description: string, destructive: bool)

  const FailureToast: Toast := Toast("Login failed", "Invalid username or password", true)

  /** One submission: the values `isLoading` takes in order, the user
      passed to `onLogin` (if any), and the toast shown. */
  datatype Attempt = Attempt(loading: seq<bool>, loggedIn: Option<string>, toast: Toast)

  /** A name that is not a key looks up `undefined`, which equals no
      password string, so it fails like a wrong password. */
  function HandleSubmit(username: string, password: string): (a: Attempt)
    ensures a.loading == [true, false]
    ensures a.loggedIn.Some? <==> username in MockUsers && MockUsers[username] == password
    ensures a.loggedIn.Some? ==> a.loggedIn.value == username && !a.toast.destructive
    ensures a.loggedIn.None? ==> a.toast == FailureToast
  {
    if username in MockUsers && MockUsers[username] == password then
      Attempt([true, false], Some(username), Toast("Login successful", "Welcome back, " + username + "!", false))
    else
      Attempt([true, false], None, FailureToast)
  }

  /** An unknown user and a known user with a wrong password see the same
      message, so the form does not reveal which names exist. */
  lemma FailureIsUniform(unknown: string, known: string, password: string)
    requires unknown !in MockUsers
    requires known in MockUsers && MockUsers[known] != password
    ensures HandleSubmit(unknown, password) == HandleSubmit(known, password)
  {
  }

  /** Names are case-sensitive: `Admin` fails even with `admin`'s
      password, which itself succeeds. */
  lemma CaseSensitive(upper: string, lower: string)
    requires upper == "Admin" && lower == "admin"
    ensures HandleSubmit(upper, MockUsers[lower]).loggedIn.None?
    ensures HandleSubmit(lower, MockUsers[lower]).loggedIn == Some(lower)
  {
    assert upper !in MockUsers by {
      assert upper[0] == 'A';
      assert forall k :: k in MockUsers ==> |k| > 0 && k[0] != 'A';
    }
  }
}

=== FILE: media_preview.dfy ===
/** `getFileType` of the media preview: which kind of player a
    non-editable file is shown in. */
module MediaPreview {
  import opened Strings
  import opened FileExtensions

  datatype FileType = Image | Video | Audio | Pdf | Unknown

  const ImageExtensions: seq<string> := ["jpg", "jpeg", "png", "gif", "webp", "svg"]
  const VideoExtensions: seq<string> := ["mp4", "avi", "mov", "mkv", "webm"]
  const AudioExtensions: seq<string> := ["mp3", "wav", "flac", "ogg"]
  const PdfExtensions: seq<string> := ["pdf"]

  /** The four lists share no extension. */
  predicate ListsDisjoint() {
    && (forall e :: e in ImageExtensions ==> e !in VideoExtensions && e !in AudioExtensions && e !in PdfExtensions)
    && (forall e :: e in VideoExtensions ==> e !in AudioExtensions && e !in PdfExtensions)
    && (forall e :: e in AudioExtensions ==> e !in PdfExtensions)
  }

  lemma ExtensionListsDisjoint()
    ensures ListsDisjoint()
  {
  }

  /** The lists are tried in order and the first hit wins; since they are
      disjoint, each kind is chosen exactly when the extension is in its
      own list, whatever the order of the tests. */
  function GetFileType(fileName: string): (t: FileType)
    ensures t == Image <==> Extension(fileName) in ImageExtensions
    ensures t == Video <==> Extension(fileName) in VideoExtensions
    ensures t == Audio <==> Extension(fileName) in AudioExtensions
    ensures t == Pdf <==> Extension(fileName) in PdfExtensions
  {
    var extension := Extension(fileName);
    ExtensionListsDisjoint();
    if extension in ImageExtensions then Image
    else if extension in VideoExtensions then Video
    else if extension in AudioExtensions then Audio
    else if extension in PdfExtensions then Pdf
    else Unknown
  }

  /** The kind depends on the name only up to ASCII case, and only through
      the text after the last dot. */
  lemma FileTypeByExtension(n: string, m: string)
    requires Extension(n) == Extension(m)
    ensures GetFileType(n) == GetFileType(m)
  {
  }

  lemma FileTypeCaseInsensitive(n: string, m: string)
    requires ToLower(n) == ToLower(m)
    ensures GetFileType(n) == GetFileType(m)
  {
    ExtensionCaseInsensitive(n, m);
  }

  /** A dot-free name such as `README` is its own extension, which no
      list holds. */
  lemma ReadmeUnknown(readme: string)
    requires readme == "README"
    ensures GetFileType(readme) == Unknown
  {
    ExtensionDotFree(readme);
    assert ToLower(readme) == "readme";
  }

  /** `svg`, in either case, is an image. */
  lemma SvgIsImage(stem: string)
    ensures GetFileType(stem + ".svg") == Image
    ensures GetFileType(stem + ".SVG") == Image
  {
    ExtensionOfLast(stem, "svg");
    assert stem + "." + "svg" == stem + ".svg";
    ExtensionOfLast(stem, "SVG");
    assert stem + "." + "SVG" == stem + ".SVG";
    assert ToLower("SVG") == "svg" == ToLower("svg") == ImageExtensions[5];
  }

  /** `webm` is a video. */
  lemma WebmIsVideo(stem: string)
    ensures GetFileType(stem + ".webm") == Video
  {
    ExtensionOfLast(stem, "webm");
    assert stem + "." + "webm" == stem + ".webm";
    assert ToLower("webm") == "webm" == VideoExtensions[4];
  }
}

=== FILE: migrate_users.dfy ===
/** The one-off migration of `users.json` into the `auth_user` table.
    The table is a map keyed on the stored username, which the upsert
    treats as the unique key. Which statements the database refuses is
    a parameter: the set of positions in the file whose upsert fails. */
module MigrateUsers {
  import opened Strings
  import opened Options

  /** One entry of the JSON file. `None` is an absent or null field. */
  datatype JsonUser = JsonUser(
    username: Option<string>, password: string,
    email: Option<string>, fullName: Option<string>, isPublic: bool)

  /** One row of `auth_user`, without its key column. */
  datatype Row = Row(passwordHash: string, email: Option<string>, fullName: Option<string>, isPublic: int)

  /** `x || null` on an optional string: the empty string is falsy. */
  function OrNull(x: Option<string>): (r: Option<string>)
    ensures r.Some? <==> x.Some? && x.value != ""
    ensures r.Some? ==> r == x
  {
    if x.Some? && x.value != "" then x else None
  }

  /** The stored username. */
  function Key(u: JsonUser): string
    requires u.username.Some?
  {
    ToLower(u.username.value)
  }

  /** Stored usernames are lower-case already, and names that agree up
      to ASCII case share their key. */
  lemma KeyIsLowerCase(u: JsonUser, v: JsonUser)
    requires u.username.Some? && v.username.Some?
    ensures ToLower(Key(u)) == Key(u)
    ensures Key(u) == Key(v) <==> ToLower(u.username.value) == ToLower(v.username.value)
  {
    ToLowerIdempotent(u.username.value);
  }

  function MapUser(u: JsonUser): (row: Row)
    ensures row.passwordHash == u.password
    ensures row.email == OrNull(u.email) && row.fullName == OrNull(u.fullName)
    ensures row.isPublic == 1 <==> u.isPublic
    ensures row.isPublic == 0 <==> !u.isPublic
  {
    Row(u.password, OrNull(u.email), OrNull(u.fullName), if u.isPublic then 1 else 0)
  }

  /** `INSERT ... ON DUPLICATE KEY UPDATE` overwriting every non-key
      column: afterwards the key holds exactly the new row, and no other
      key changes. */
  function Upsert(table: map<string, Row>, key: string, row: Row): (t: map<string, Row>)
    ensures t.Keys == table.Keys + {key}
    ensures t[key] == row
    ensures forall k :: k in table && k != key ==> t[k] == table[k]
  {
    table[key := row]
  }

  /** What the run leaves: the table, the positions whose upsert failed
      (logged and skipped), and the position whose missing username
      threw outside the `try`, ending the whole run. */
  datatype Run = Run(table: map<string, Row>, failed: seq<nat>, abortedAt: Option<nat>)

  /** Processing the users from position `i` on. */
  function MigrateFrom(table: map<string, Row>, users: seq<JsonUser>, rejected: set<nat>, i: nat): (r: Run)
    requires i <= |users|
    decreases |users| - i
  {
    if i == |users| then Run(table, [], None)
    else if users[i].username.None? then Run(table, [], Some(i))
    else if i in rejected then
      var r := MigrateFrom(table, users, rejected, i + 1);
      r.(failed := [i] + r.failed)
    else MigrateFrom(Upsert(table, Key(users[i]), MapUser(users[i])), users, rejected, i + 1)
  }

  function Migrate(users: seq<JsonUser>, rejected: set<nat>, table: map<string, Row>): Run {
    MigrateFrom(table, users, rejected, 0)
  }

  /** The first position at or after `i` without a username, or the
      length of the file when there is none. */
  function Stop(users: seq<JsonUser>, i: nat): (s: nat)
    requires i <= |users|
    ensures i <= s <= |users|
    ensures forall j :: i <= j < s ==> users[j].username.Some?
    ensures s < |users| ==> users[s].username.None?
    decreases |users| - i
  {
    if i == |users| || users[i].username.None? then i else Stop(users, i + 1)
  }

  /** The user at position `j` is written into the table under `k`. */
  predicate Writes(users: seq<JsonUser>, rejected: set<nat>, j: nat, k: string)
    requires j < |users|
  {
    users[j].username.Some? && j !in rejected && Key(users[j]) == k
  }

  /** The run stops at the first missing username and logs exactly the
      refused positions before it. */
  lemma {:induction false} MigrateStops(table: map<string, Row>, users: seq<JsonUser>, rejected: set<nat>, i: nat)
    requires i <= |users|
    ensures var r := MigrateFrom(table, users, rejected, i);
      var s := Stop(users, i);
      && (r.abortedAt.Some? <==> s < |users|)
      && (r.abortedAt.Some? ==> r.abortedAt.value == s)
      && (forall j :: j in r.failed <==> i <= j < s && j in rejected)
    decreases |users| - i
  {
    if i < |users| && users[i].username.Some? {
      if i in rejected {
        MigrateStops(table, users, rejected, i + 1);
      } else {
        MigrateStops(Upsert(table, Key(users[i]), MapUser(users[i])), users, rejected, i + 1);
      }
    }
  }

  /** Nothing but the old keys and the keys written before the stop
      enters the table. */
  lemma {:induction false} MigrateKeys(table: map<string, Row>, users: seq<JsonUser>, rejected: set<nat>, i: nat)
    requires i <= |users|
    ensures var r := MigrateFrom(table, users, rejected, i);
      var s := Stop(users, i);
      forall k :: k in r.table <==> k in table || exists j :: i <= j < s && Writes(users, rejected, j, k)
    decreases |users| - i
  {
    if i < |users| && users[i].username.Some? {
      if i in rejected {
        MigrateKeys(table, users, rejected, i + 1);
      } else {
        var key := Key(users[i]);
        var t' := Upsert(table, key, MapUser(users[i]));
        MigrateKeys(t', users, rejected, i + 1);
        var r := MigrateFrom(table, users, rejected, i);
        var s := Stop(users, i);
        assert Writes(users, rejected, i, key);
        forall k | k in table || exists j :: i <= j < s && Writes(users, rejected, j, k)
          ensures k in r.table
        {
          if k !in t' {
            var j :| i <= j < s && Writes(users, rejected, j, k);
            assert j != i;
          }
        }
      }
    }
  }

  /** For every key written before the stop, the table holds the row of
      the LAST user written under that key. */
  lemma {:induction false} MigrateLastWriter(table: map<string, Row>, users: seq<JsonUser>, rejected: set<nat>, i: nat)
    requires i <= |users|
    ensures var r := MigrateFrom(table, users, rejected, i);
      var s := Stop(users, i);
      forall k, j :: i <= j < s && Writes(users, rejected, j, k)
        && (forall j' :: j < j' < s ==> !Writes(users, rejected, j', k))
        ==> k in r.table && r.table[k] == MapUser(users[j])
    decreases |users| - i
  {
    if i < |users| && users[i].username.Some? {
      var s := Stop(users, i);
      assert s == Stop(users, i + 1);
      if i in rejected {
        MigrateLastWriter(table, users, rejected, i + 1);
      } else {
        var key := Key(users[i]);
        var t' := Upsert(table, key, MapUser(users[i]));
        MigrateLastWriter(t', users, rejected, i + 1);
        MigrateUntouched(t', users, rejected, i + 1);
        var r := MigrateFrom(table, users, rejected, i);
        assert r == MigrateFrom(t', users, rejected, i + 1);
        forall k, j | i <= j < s && Writes(users, rejected, j, k)
            && (forall j' :: j < j' < s ==> !Writes(users, rejected, j', k))
          ensures k in r.table && r.table[k] == MapUser(users[j])
        {
          if j == i {
            assert k == key && k in t';
          }
        }
      }
    }
  }

  /** A key nobody before the stop writes keeps its old row. */
  lemma {:induction false} MigrateUntouched(table: map<string, Row>, users: seq<JsonUser>, rejected: set<nat>, i: nat)
    requires i <= |users|
    ensures var r := MigrateFrom(table, users, rejected, i);
      var s := Stop(users, i);
      forall k :: k in table && (forall j :: i <= j < s ==> !Writes(users, rejected, j, k))
        ==> k in r.table && r.table[k] == table[k]
    decreases |users| - i
  {
    if i < |users| && users[i].username.Some? {
      var s := Stop(users, i);
      assert s == Stop(users, i + 1);
      if i in rejected {
        MigrateUntouched(table, users, rejected, i + 1);
      } else {
        var key := Key(users[i]);
        var t' := Upsert(table, key, MapUser(users[i]));
        MigrateUntouched(t', users, rejected, i + 1);
        var r := MigrateFrom(table, users, rejected, i);
        assert r == MigrateFrom(t', users, rejected, i + 1);
        forall k | k in table && (forall j :: i <= j < s ==> !Writes(users, rejected, j, k))
          ensures k in r.table && r.table[k] == table[k]
        {
          assert !Writes(users, rejected, i, k);
          assert k != key;
        }
      }
    }
  }

  /** Two users differing only in the case of their names share one row,
      and the later one's values win. */
  lemma CaseCollapse(first: JsonUser, second: JsonUser)
    requires first.username.Some? && second.username.Some?
    requires ToLower(first.username.value) == ToLower(second.username.value)
    ensures var r := Migrate([first, second], {}, map[]);
      && r.table.Keys == {Key(first)}
      && r.table[Key(first)] == MapUser(second)
  {
    var users := [first, second];
    MigrateKeys(map[], users, {}, 0);
    MigrateLastWriter(map[], users, {}, 0);
    var r := Migrate(users, {}, map[]);
    assert Stop(users, 0) == 2 by {
      assert Stop(users, 2) == 2;
    }
    assert Writes(users, {}, 1, Key(first));
    assert forall k :: k in r.table ==> k == Key(first) by {
      forall k | k in r.table ensures k == Key(first) {
        var j :| 0 <= j < 2 && Writes(users, {}, j, k);
      }
    }
  }

  /** A refused row is skipped but the run goes on: the user after it is
      still written. */
  lemma FailureSkipsOnlyThatRow(bad: JsonUser, good: JsonUser)
    requires bad.username.Some? && good.username.Some?
    requires Key(bad) != Key(good)
    ensures var r := Migrate([bad, good], {0}, map[]);
      && r.failed == [0] && r.abortedAt.None?
      && r.table == map[Key(good) := MapUser(good)]
  {
    var users := [bad, good];
    var t := Upsert(map[], Key(good), MapUser(good));
    assert MigrateFrom(t, users, {0}, 2) == Run(t, [], None);
    assert MigrateFrom(map[], users, {0}, 1) == Run(t, [], None);
  }
}

=== FILE: mime_types.dfy ===
/** `isTextMime`: whether a MIME string names text the browser can show
    as such. It follows the `+xml` structured-syntax suffix of section
    4.2.8 of RFC 6838, but compares case-sensitively and keeps any
    parameters, although section 5.1 of RFC 2045 makes type and subtype
    case-insensitive. */
module MimeTypes {
  import opened Strings

  /** The three exact `application/...` strings accepted. */
  const TextApplications: seq<string> := ["json", "javascript", "xml"]

  /** Every accepted string has at least four characters, and one
      accepted without the `+xml` suffix contains a slash. */
  function IsTextMime(mime: string): (r: bool)
    ensures r ==> |mime| >= 4
    ensures r && !EndsWith(mime, "+xml") ==> '/' in mime
  {
    assert StartsWith(mime, "text/") ==> mime[4] == '/';
    assert mime == "application/json" || mime == "application/javascript" || mime == "application/xml"
           ==> mime[11] == '/';
    || StartsWith(mime, "text/")
    || mime == "application/json"
    || mime == "application/javascript"
    || mime == "application/xml"
    || EndsWith(mime, "+xml")
  }

  /** A slash-free word followed by `/` starts the string exactly when it
      is the text before the first slash. */
  lemma {:induction false} StartsWithWordSlash(t: string, sub: string, w: string)
    requires '/' !in t && '/' !in w
    ensures StartsWith(t + "/" + sub, w + "/") <==> t == w
  {
    var s := t + "/" + sub;
    if t == w {
      assert s[..|w| + 1] == w + "/";
    } else if |w| < |s| {
      if |t| < |w| {
        assert s[|t|] == '/' != w[|t|];
      } else if |t| > |w| {
        assert s[|w|] == t[|w|] != '/';
      } else {
        assert s[..|w|] == t != w;
      }
    }
  }

  /** Splitting at the first slash is unique. */
  lemma SplitAtSlash(t: string, sub: string, w: string, v: string)
    requires '/' !in t && '/' !in w
    ensures t + "/" + sub == w + "/" + v <==> t == w && sub == v
  {
    var s := t + "/" + sub;
    if s == w + "/" + v {
      StartsWithWordSlash(t, sub, w);
      assert s[..|w| + 1] == w + "/";
      assert sub == s[|t| + 1..] == (w + "/" + v)[|w| + 1..] == v;
    }
  }

  /** A suffix without a slash lies inside the subtype. */
  lemma EndsWithInSubtype(t: string, sub: string, x: string)
    requires '/' !in x
    ensures EndsWith(t + "/" + sub, x) <==> EndsWith(sub, x)
  {
    var s := t + "/" + sub;
    if |x| <= |sub| {
      assert s[|s| - |x|..] == sub[|sub| - |x|..];
    } else if |x| <= |s| {
      assert s[|s| - |x|..][|x| - |sub| - 1] == s[|t|] == '/';
    }
  }

  /** For a MIME string `type/subtype` whose type has no slash: it is
      text exactly when the type is `text`, or it is one of the three
      listed `application` types, or the subtype carries the `+xml`
      suffix. */
  lemma TextMimeStructure(t: string, sub: string)
    requires '/' !in t
    ensures IsTextMime(t + "/" + sub) <==>
      || t == "text"
      || (t == "application" && sub in TextApplications)
      || EndsWith(sub, "+xml")
  {
    StartsWithWordSlash(t, sub, "text");
    assert "text" + "/" == "text/";
    SplitAtSlash(t, sub, "application", "json");
    assert "application" + "/" + "json" == "application/json";
    SplitAtSlash(t, sub, "application", "javascript");
    assert "application" + "/" + "javascript" == "application/javascript";
    SplitAtSlash(t, sub, "application", "xml");
    assert "application" + "/" + "xml" == "application/xml";
    EndsWithInSubtype(t, sub, "+xml");
  }

  /** A string without a slash is text only through the `+xml` test. */
  lemma TextMimeWithoutSlash(mime: string)
    requires '/' !in mime
    ensures IsTextMime(mime) <==> EndsWith(mime, "+xml")
  {
    assert "text/"[4] == '/';
    assert "application/json"[11] == '/';
    assert "application/javascript"[11] == '/';
    assert "application/xml"[11] == '/';
  }

  /** `image/svg+xml` is text; `Text/plain` is not, the match being
      case-sensitive; `application/json; charset=utf-8` is not, the
      parameters being kept. */
  lemma TextMimeExamples(image: string, svg: string, upper: string, plain: string, json: string)
    requires image == "image" && svg == "svg+xml"
    requires upper == "Text" && plain == "plain"
    requires json == "json; charset=utf-8"
    ensures IsTextMime(image + "/" + svg)
    ensures !IsTextMime(upper + "/" + plain)
    ensures !IsTextMime("application" + "/" + json)
  {
    TextMimeStructure(image, svg);
    assert svg[|svg| - 4..] == "+xml";
    TextMimeStructure(upper, plain);
    assert upper != "text" by { assert upper[0] != "text"[0]; }
    TextMimeStructure("application", json);
    assert json !in TextApplications by {
      assert |json| != |"json"| && |json| != |"javascript"| && |json| != |"xml"|;
    }
    assert json[|json| - 4..] != "+xml" by { assert json[|json| - 1] == '8'; }
  }
}

=== FILE: options.dfy ===
/** Optional values and results with an error message: `undefined`/`null`
    and thrown errors of the JavaScript code. */
module Options {

  datatype Option<T> = None | Some(value: T)

  datatype Result<T> = Ok(value: T) | Err(error: string)
}

=== FILE: posix_path.dfy ===
/** The lexical part of Node's POSIX `path` module that the server relies
    on: `path.resolve` with one argument, `path.join` of a directory and a
    directory-entry name, and `path.basename`. Everything is string
    manipulation: symbolic links are never consulted. */
module PosixPath {
  import opened Strings

  predicate IsAbsolute(p: string) {
    |p| > 0 && p[0] == '/'
  }

  /** A segment that survives normalisation: not empty, not `.`, not `..`,
      and free of `/`. Directory-entry names have this shape too. */
  predicate IsPlainSegment(s: string) {
    s != "" && s != "." && s != ".." && '/' !in s
  }

  predicate Canonical(segs: seq<string>) {
    forall i :: 0 <= i < |segs| ==> IsPlainSegment(segs[i])
  }

  /** An absolute path in the form `resolve` produces: `/` alone, or `/`
      followed by plain segments separated by single slashes. */
  predicate IsNormalAbsolute(p: string) {
    IsAbsolute(p) && (p == "/" || Canonical(Split(p[1..], '/')))
  }

  /** Node's `normalizeString` for an absolute path, as a stack machine
      over the `/`-separated parts: empty parts and `.` vanish, `..` drops
      the last kept segment and is ignored at the root, and every other
      part is kept. */
  function Collapse(stack: seq<string>, parts: seq<string>): (r: seq<string>)
    requires Canonical(stack)
    requires SepFree(parts, '/')
    ensures Canonical(r)
    decreases |parts|
  {
    if |parts| == 0 then stack
    else
      assert SepFree(parts[1..], '/') by {
        forall i | 0 <= i < |parts[1..]| ensures '/' !in parts[1..][i] {
          assert parts[1..][i] == parts[i + 1];
        }
      }
      if parts[0] == "" || parts[0] == "." then Collapse(stack, parts[1..])
      else if parts[0] == ".." then
        Collapse(if |stack| > 0 then stack[..|stack| - 1] else stack, parts[1..])
      else Collapse(stack + [parts[0]], parts[1..])
  }

  /** Collapsing parts that are already plain keeps them all, in order. */
  lemma {:induction false} CollapseCanonical(stack: seq<string>, parts: seq<string>)
    requires Canonical(stack) && Canonical(parts)
    ensures Collapse(stack, parts) == stack + parts
    decreases |parts|
  {
    if |parts| > 0 {
      assert Canonical(parts[1..]) by {
        forall i | 0 <= i < |parts[1..]| ensures IsPlainSegment(parts[1..][i]) {
          assert parts[1..][i] == parts[i + 1];
        }
      }
      CollapseCanonical(stack + [parts[0]], parts[1..]);
      assert stack + [parts[0]] + parts[1..] == stack + parts;
    }
  }

  /** `/` followed by the segments joined with `/`. */
  function FromSegments(segs: seq<string>): string {
    "/" + Join(segs, '/')
  }

  /** Rendering plain segments gives a normal absolute path whose segments
      are exactly those. */
  lemma FromSegmentsNormal(segs: seq<string>)
    requires Canonical(segs)
    ensures IsNormalAbsolute(FromSegments(segs))
    ensures |segs| > 0 ==> Split(FromSegments(segs)[1..], '/') == segs
    ensures |segs| == 0 <==> FromSegments(segs) == "/"
  {
    var p := FromSegments(segs);
    assert p[1..] == Join(segs, '/');
    if |segs| > 0 {
      SplitJoin(segs, '/');
      assert |Join(segs, '/')| >= |segs[0]| > 0 by {
        if |segs| > 1 {
          assert Join(segs, '/') == segs[0] + "/" + Join(segs[1..], '/');
        }
      }
    }
  }

  /** A normal absolute path is rebuilt from its own segments. */
  lemma NormalFromSegments(p: string)
    requires IsNormalAbsolute(p)
    ensures p == "/" ==> Collapse([], Split(p, '/')) == []
    ensures p != "/" ==> Collapse([], Split(p, '/')) == Split(p[1..], '/')
    ensures FromSegments(Collapse([], Split(p, '/'))) == p
  {
    assert p == [] + ['/'] + p[1..];
    SplitAround([], '/', p[1..]);
    JoinSplit(p[1..], '/');
    if p == "/" {
      assert Split(p[1..], '/') == [""];
      assert Split(p, '/') == ["", ""];
      assert Collapse([], ["", ""]) == Collapse([], [""]) == Collapse([], []);
    } else {
      var segs := Split(p[1..], '/');
      assert Split(p, '/') == [""] + segs;
      assert Split(p, '/')[1..] == segs;
      CollapseCanonical([], segs);
    }
  }

  lemma NormalFromSegmentsWhen(p: string)
    ensures IsNormalAbsolute(p) && p != "/" ==>
              p == FromSegments(Collapse([], Split(p, '/')))
              && Collapse([], Split(p, '/')) != []
  {
    if IsNormalAbsolute(p) && p != "/" {
      NormalFromSegments(p);
    }
  }

  /** The last segment of a normal path other than the root is not
      empty. */
  lemma NormalLastSegment(p: string)
    ensures IsNormalAbsolute(p) && p != "/" ==> LastSegment(p, '/') != ""
    ensures IsNormalAbsolute(p) && p != "/" ==> p[|p| - 1] != '/'
  {
    if IsNormalAbsolute(p) && p != "/" {
      NormalFromSegments(p);
      var segs := Split(p[1..], '/');
      LastSegmentAfter(segs);
      LastSegmentIsSuffix(p, '/');
      var l := LastSegment(p, '/');
      assert p[|p| - 1] == l[|l| - 1];
    }
  }

  /** The path `path.resolve` starts from before normalising: the
      argument itself when absolute, the working directory when the
      argument is empty, and otherwise the working directory, a slash and
      the argument. */
  function Unresolved(cwd: string, p: string): string {
    if p == "" then cwd else if p[0] == '/' then p else cwd + "/" + p
  }

  /** The segments of `path.resolve(p)` run in working directory `cwd`. */
  function ResolveSegments(cwd: string, p: string): (segs: seq<string>)
    ensures Canonical(segs)
  {
    Collapse([], Split(Unresolved(cwd, p), '/'))
  }

  /** `path.resolve(p)` run in working directory `cwd`, which the
      operating system always reports as an absolute path. The result is
      absolute, contains no `.`, `..` or empty segment, and has no
      trailing slash. */
  function Resolve(cwd: string, p: string): (r: string)
    requires IsAbsolute(cwd)
    ensures IsNormalAbsolute(r)
    ensures r == "/" <==> ResolveSegments(cwd, p) == []
    ensures r != "/" ==> Split(r[1..], '/') == ResolveSegments(cwd, p)
  {
    var segs := ResolveSegments(cwd, p);
    FromSegmentsNormal(segs);
    FromSegments(segs)
  }

  /** The parts of `/` followed by plain segments. */
  lemma SplitAbsolute(segs: seq<string>)
    requires Canonical(segs) && |segs| > 0
    ensures Split(FromSegments(segs), '/') == [""] + segs
  {
    var p := FromSegments(segs);
    assert p == [] + ['/'] + Join(segs, '/');
    SplitAround([], '/', Join(segs, '/'));
    SplitJoin(segs, '/');
  }

  /** A path rendered from plain segments resolves to itself, with those
      segments, in every working directory. */
  lemma ResolveRendered(cwd: string, segs: seq<string>)
    requires IsAbsolute(cwd)
    requires Canonical(segs) && |segs| > 0
    ensures ResolveSegments(cwd, FromSegments(segs)) == segs
    ensures Resolve(cwd, FromSegments(segs)) == FromSegments(segs)
  {
    SplitAbsolute(segs);
    var parts := [""] + segs;
    assert parts[1..] == segs;
    CollapseCanonical([], segs);
  }

  /** Rendering two and three segments. */
  lemma RenderSmall(a: string, b: string, c: string)
    ensures FromSegments([a, b]) == "/" + a + "/" + b
    ensures FromSegments([a, b, c]) == "/" + a + "/" + b + "/" + c
  {
    assert [a, b][1..] == [b];
    assert Join([a, b], '/') == a + "/" + Join([b], '/');
    assert [a, b, c][1..] == [b, c];
    assert [b, c][1..] == [c];
    assert Join([b, c], '/') == b + "/" + Join([c], '/');
    assert Join([a, b, c], '/') == a + "/" + Join([b, c], '/');
  }

  /** Resolving an already resolved path changes nothing. */
  lemma ResolveIdempotent(cwd: string, p: string)
    requires IsAbsolute(cwd)
    ensures Resolve(cwd, Resolve(cwd, p)) == Resolve(cwd, p)
  {
    NormalFromSegments(Resolve(cwd, p));
  }

  /** An absolute argument resolves the same in every working directory;
      a relative one resolves as if appended to the working directory. */
  lemma ResolveRelativeToCwd(cwd: string, cwd': string, p: string)
    requires IsAbsolute(cwd) && IsAbsolute(cwd')
    ensures IsAbsolute(p) ==> Resolve(cwd, p) == Resolve(cwd', p)
    ensures p != "" && !IsAbsolute(p) ==> Resolve(cwd, p) == Resolve(cwd', cwd + "/" + p)
  {
  }

  /** `path.join(dir, name)` for a directory-entry name, which never
      contains a slash and is never empty, `.` or `..`. */
  function JoinPath(dir: string, name: string): (r: string)
    requires IsAbsolute(dir)
    requires IsPlainSegment(name)
    ensures IsNormalAbsolute(r) && r != "/"
    ensures IsNormalAbsolute(dir) && dir != "/" ==> r == dir + "/" + name
    ensures LastSegment(r, '/') == name
  {
    JoinSegments(dir, name);
    JoinRendered(Collapse([], Split(dir, '/')), name);
    NormalFromSegmentsWhen(dir);
    FromSegments(Collapse([], Split(dir, '/')) + [name])
  }

  /** Joining a plain name appends it to the directory's segments. */
  lemma JoinSegments(dir: string, name: string)
    requires IsPlainSegment(name)
    ensures Collapse([], Split(dir + "/" + name, '/')) == Collapse([], Split(dir, '/')) + [name]
  {
    SplitAround(dir, '/', name);
    SplitSepFree(name, '/');
    CollapseAppend(Split(dir, '/'), name);
  }

  /** Rendering segments with one more plain name at the end. */
  lemma JoinRendered(segs: seq<string>, name: string)
    requires Canonical(segs) && IsPlainSegment(name)
    ensures IsNormalAbsolute(FromSegments(segs + [name])) && FromSegments(segs + [name]) != "/"
    ensures LastSegment(FromSegments(segs + [name]), '/') == name
    ensures segs != [] ==> FromSegments(segs + [name]) == FromSegments(segs) + "/" + name
  {
    FromSegmentsNormal(segs + [name]);
    LastSegmentAfter(segs + [name]);
    JoinSnocAny(segs, name);
  }

  lemma JoinSnocAny(segs: seq<string>, name: string)
    ensures Join(segs + [name], '/') == if segs == [] then name else Join(segs, '/') + "/" + name
  {
    if segs == [] {
      assert segs + [name] == [name];
    } else {
      JoinSnoc(segs, name, '/');
    }
  }

  /** One step of the stack machine. */
  lemma CollapseCons(stack: seq<string>, x: string, rest: seq<string>)
    requires Canonical(stack) && SepFree([x] + rest, '/')
    ensures SepFree(rest, '/')
    ensures x == "" ==> Collapse(stack, [x] + rest) == Collapse(stack, rest)
    ensures x == ".." && |stack| > 0 ==> Collapse(stack, [x] + rest) == Collapse(stack[..|stack| - 1], rest)
    ensures IsPlainSegment(x) ==> Collapse(stack, [x] + rest) == Collapse(stack + [x], rest)
  {
    assert ([x] + rest)[1..] == rest;
    assert forall i :: 0 <= i < |rest| ==> rest[i] == ([x] + rest)[i + 1];
  }

  /** Keeping one more plain segment after a run of parts appends it. */
  lemma CollapseAppend(parts: seq<string>, name: string)
    requires SepFree(parts, '/')
    requires IsPlainSegment(name)
    ensures Collapse([], parts + [name]) == Collapse([], parts) + [name]
  {
    CollapseStep([], parts, name);
  }

  lemma {:induction false} CollapseStep(stack: seq<string>, parts: seq<string>, name: string)
    requires Canonical(stack)
    requires SepFree(parts, '/')
    requires IsPlainSegment(name)
    ensures Collapse(stack, parts + [name]) == Collapse(stack, parts) + [name]
    decreases |parts|
  {
    if |parts| == 0 {
      assert parts + [name] == [name];
      assert [name][1..] == [];
    } else {
      assert (parts + [name])[1..] == parts[1..] + [name];
      assert SepFree(parts[1..], '/') by {
        forall i | 0 <= i < |parts[1..]| ensures '/' !in parts[1..][i] {
          assert parts[1..][i] == parts[i + 1];
        }
      }
      var next := if parts[0] == "" || parts[0] == "." then stack
                  else if parts[0] == ".." then (if |stack| > 0 then stack[..|stack| - 1] else stack)
                  else stack + [parts[0]];
      CollapseStep(next, parts[1..], name);
    }
  }

  /** The last segment of a rendered path is its last segment. */
  lemma LastSegmentAfter(segs: seq<string>)
    requires Canonical(segs) && |segs| > 0
    ensures LastSegment(FromSegments(segs), '/') == segs[|segs| - 1]
  {
    FromSegmentsNormal(segs);
    var p := FromSegments(segs);
    assert p == [] + ['/'] + p[1..];
    LastSegmentAfterSep([], '/', p[1..]);
  }

  /** `path.basename(p)`: trailing slashes are ignored, then everything up
      to the last slash is dropped. */
  function BaseName(p: string): (r: string)
    ensures '/' !in r
    ensures IsNormalAbsolute(p) && p != "/" ==> r == LastSegment(p, '/') && r != ""
  {
    var q := StripTrailingSlashes(p);
    LastSegmentIsSuffix(q, '/');
    NormalLastSegment(p);
    LastSegment(q, '/')
  }

  function StripTrailingSlashes(p: string): string
  {
    if |p| > 0 && p[|p| - 1] == '/' then StripTrailingSlashes(p[..|p| - 1]) else p
  }
}

=== FILE: profile.dfy ===
/** The profile page's submit handler: the password check, the update
    payload, and what a successful or failed update leaves behind. The
    server is a parameter from payload to answer. */
module Profile {
  import opened Options
  import TokenStore

  datatype ProfileData = ProfileData(username: string, fullName: string, email: string, isPublic: bool)

  datatype Form = Form(
    username: string, fullName: string, email: string, isPublic: bool,
    currentPassword: string, newPassword: string, confirmPassword: string)

  /** The body of the update call; `None` is a field left `undefined`,
      which JSON serialisation drops. */
  datatype Payload = Payload(
    username: string, fullName: string, email: string, isPublic: bool,
    currentPassword: Option<string>, newPassword: Option<string>)

  /** The server's answer: the new profile and, possibly, a fresh token;
      or a failed call. */
  datatype Answer = Updated(profile: ProfileData, token: Option<string>) | UpdateFailed

  datatype Toast = Toast(title: string, destructive: bool)

  /** The page state the handler touches, with the API client's token
      and the `username` storage key beside it. */
  datatype Page = Page(
    profile: ProfileData, form: Form,
    client: TokenStore.Client, storedUsername: Option<string>)

  /** The guard: a non-empty new password must be confirmed. An empty
      one passes whatever the confirmation holds. */
  predicate PasswordsAgree(f: Form) {
    f.newPassword == "" || f.newPassword == f.confirmPassword
  }

  /** The payload: the current password travels only with a new one,
      and an empty new password is left out. */
  function BuildPayload(f: Form): (p: Payload)
    ensures p.username == f.username && p.fullName == f.fullName
    ensures p.email == f.email && p.isPublic == f.isPublic
    ensures p.newPassword.Some? <==> f.newPassword != ""
    ensures p.newPassword.Some? ==> p.newPassword.value == f.newPassword
    ensures p.currentPassword.Some? <==> p.newPassword.Some?
    ensures p.currentPassword.Some? ==> p.currentPassword.value == f.currentPassword
  {
    Payload(f.username, f.fullName, f.email, f.isPublic,
      if f.newPassword != "" then Some(f.currentPassword) else None,
      if f.newPassword != "" then Some(f.newPassword) else None)
  }

  /** One submission: the payload sent (if any), the page afterwards and
      the toast. */
  datatype Submission = Submission(sent: Option<Payload>, page: Page, toast: Toast)

  /** After a successful update the three password fields are cleared
      and a truthy token is stored with the username. The `username`
      key is written to storage without a guard: with no storage that
      write throws, and the handler reports failure after the state has
      already changed. */
  function HandleSubmit(s: Page, server: Payload -> Answer): (r: Submission)
    ensures !PasswordsAgree(s.form) ==> r.sent.None? && r.page == s && r.toast == Toast("Passwords do not match", true)
    ensures PasswordsAgree(s.form) ==> r.sent == Some(BuildPayload(s.form))
    ensures r.sent.Some? && server(r.sent.value).UpdateFailed? ==> r.page == s && r.toast.destructive
    ensures r.sent.Some? && server(r.sent.value).Updated? ==>
      && r.page.profile == server(r.sent.value).profile
      && r.page.form.currentPassword == r.page.form.newPassword == r.page.form.confirmPassword == ""
      && r.page.form.username == s.form.username && r.page.form.email == s.form.email
  {
    if !PasswordsAgree(s.form) then
      Submission(None, s, Toast("Passwords do not match", true))
    else
      var payload := BuildPayload(s.form);
      match server(payload)
      case UpdateFailed =>
        Submission(Some(payload), s, Toast("Update failed", true))
      case Updated(profile, token) =>
        var form := s.form.(currentPassword := "", newPassword := "", confirmPassword := "");
        var cleared := s.(profile := profile, form := form);
        if token.Some? && token.value != "" then
          var client := TokenStore.SetToken(s.client, token.value);
          if client.storage.NoStorage? then
            Submission(Some(payload), cleared.(client := client), Toast("Update failed", true))
          else
            Submission(Some(payload), cleared.(client := client, storedUsername := Some(profile.username)),
              Toast("Profile updated", false))
        else
          Submission(Some(payload), cleared, Toast("Profile updated", false))
  }

  /** The token in use changes exactly when the answer carries a truthy
      token, and then becomes that token; with storage, the username
      is saved beside it. */
  lemma TokenOnlyFromAnswer(s: Page, server: Payload -> Answer)
    requires PasswordsAgree(s.form)
    ensures var a := server(BuildPayload(s.form));
      var r := HandleSubmit(s, server);
      && (a.Updated? && a.token.Some? && a.token.value != "" ==>
            TokenStore.GetToken(r.page.client) == a.token.value
            && (s.client.storage.Stored? ==> r.page.storedUsername == Some(a.profile.username)))
      && (!(a.Updated? && a.token.Some? && a.token.value != "") ==>
            r.page.client == s.client && r.page.storedUsername == s.storedUsername)
  {
  }

  /** The toast reports success exactly when the update went through and
      nothing after it threw. */
  lemma SuccessToast(s: Page, server: Payload -> Answer)
    ensures var r := HandleSubmit(s, server);
      !r.toast.destructive <==>
        && PasswordsAgree(s.form)
        && server(BuildPayload(s.form)).Updated?
        && (s.client.storage.Stored? || !(server(BuildPayload(s.form)).token.Some? && server(BuildPayload(s.form)).token.value != ""))
  {
  }
}

=== FILE: server.dfy ===
/** The Express server: `GET /api/tree` lists the base directory
    recursively, and `GET /api/file?path=` reads one file after resolving
    the client's path lexically and testing that the result starts with
    the base directory. The filesystem is an input: a directory listing
    tree for `/api/tree`, and the outcome of reading a given path for
    `/api/file`. */
module Server {
  import opened Options
  import opened Strings
  import opened PosixPath
  import opened TreeNodes

  /** `BASE_DIR` */
  const BaseDir: string := "/users/leo"

  /** The base directory is a normal absolute path with segments `users`
      and `leo`. */
  lemma BaseDirSegments()
    ensures BaseDir == FromSegments(["users", "leo"])
    ensures Canonical(["users", "leo"])
    ensures IsNormalAbsolute(BaseDir) && BaseDir != "/"
    ensures BaseName(BaseDir) == "leo"
  {
    var segs := ["users", "leo"];
    JoinHead(segs, '/');
    assert segs[1..] == ["leo"];
    FromSegmentsNormal(segs);
    LastSegmentAfter(segs);
  }

  // ---------------------------------------------------------------------
  // GET /api/file

  /** What Express's query-string parser can hand over as `req.query.path`:
      nothing, one string, a repeated parameter or a bracketed object. */
  datatype QueryValue =
    | Missing
    | Text(value: string)
    | Repeated(values: seq<string>)
    | Nested(fields: map<string, string>)

  /** The decision taken before the filesystem is touched. */
  datatype Access = Rejected(error: string) | ReadAt(path: string)

  /** The outcome of `fs.readFile(path, 'utf8')`. */
  datatype ReadOutcome = Contents(text: string) | ReadFailed(message: string)

  /** A `text/plain` body, or a status code with a JSON `{ error }` body. */
  datatype Response = PlainText(body: string) | JsonError(status: int, error: string)

  /** The containment test of the handler: a raw string prefix, with no
      requirement that a segment boundary follow the prefix. */
  predicate Admits(resolved: string) {
    StartsWith(resolved, BaseDir)
  }

  /** Validation of `req.query.path`: only a string is accepted, and only
      when its resolved form passes the prefix test. Whatever is read is
      normal, absolute and starts with the base directory. */
  function Decide(cwd: string, q: QueryValue): (a: Access)
    requires IsAbsolute(cwd)
    ensures !q.Text? ==> a == Rejected("path query parameter required")
    ensures a.ReadAt? ==> IsNormalAbsolute(a.path) && StartsWith(a.path, BaseDir)
    ensures a.ReadAt? ==> q.Text? && a.path == Resolve(cwd, q.value)
    ensures q.Text? && a.Rejected? ==> a.error == "invalid path" && !Admits(Resolve(cwd, q.value))
  {
    if !q.Text? then Rejected("path query parameter required")
    else
      var normalized := Resolve(cwd, q.value);
      if !Admits(normalized) then Rejected("invalid path")
      else ReadAt(normalized)
  }

  /** `GET /api/file`: 400 when rejected, 500 when the read fails, and the
      file's text otherwise. */
  function ApiFile(cwd: string, q: QueryValue, read: string -> ReadOutcome): (r: Response)
    requires IsAbsolute(cwd)
    ensures Decide(cwd, q).Rejected? <==> r.JsonError? && r.status == 400
    ensures r.PlainText? ==> Decide(cwd, q).ReadAt? && read(Decide(cwd, q).path) == Contents(r.body)
    ensures r.JsonError? && r.status != 400 ==> r.status == 500 && read(Decide(cwd, q).path).ReadFailed?
    ensures r.JsonError? && r.status == 400 ==> r.error == Decide(cwd, q).error
    ensures r.JsonError? && r.status == 500 ==> r.error == read(Decide(cwd, q).path).message
  {
    match Decide(cwd, q)
    case Rejected(e) => JsonError(400, e)
    case ReadAt(p) =>
      match read(p)
      case Contents(t) => PlainText(t)
      case ReadFailed(m) => JsonError(500, m)
  }

  /** A rejected request never reaches the filesystem: its response is the
      same whatever the disk holds. An accepted one depends on the disk
      only at the resolved path. */
  lemma ReadsOnlyTheResolvedPath(cwd: string, q: QueryValue, read1: string -> ReadOutcome, read2: string -> ReadOutcome)
    requires IsAbsolute(cwd)
    ensures Decide(cwd, q).Rejected? ==> ApiFile(cwd, q, read1) == ApiFile(cwd, q, read2)
    ensures q.Text? && read1(Resolve(cwd, q.value)) == read2(Resolve(cwd, q.value))
            ==> ApiFile(cwd, q, read1) == ApiFile(cwd, q, read2)
  {
  }

  /** The prefix test, restated on segments: a resolved path is admitted
      exactly when its first segment is `users` and its second segment
      begins with the letters `leo`. */
  lemma AdmitsIff(segs: seq<string>)
    requires Canonical(segs)
    ensures Admits(FromSegments(segs))
            <==> |segs| >= 2 && segs[0] == "users" && StartsWith(segs[1], "leo")
  {
    var j := Join(segs, '/');
    var p := FromSegments(segs);
    assert BaseDir == ['/'] + ("users" + ['/'] + "leo");
    StartsWithCons('/', j, "users" + ['/'] + "leo");
    if |segs| > 0 {
      assert SepFree(segs, '/');
      JoinStartsWithWord(segs, '/', "users", "leo");
      if |segs| > 1 {
        assert SepFree(segs[1..], '/');
        JoinStartsWithFree(segs[1..], '/', "leo");
      }
    }
  }

  /** Which requests `/api/file` reads: exactly those whose path resolves
      to segments `users`, then a name beginning with `leo`, then anything. */
  lemma FileAccessIff(cwd: string, p: string)
    requires IsAbsolute(cwd)
    ensures Decide(cwd, Text(p)).ReadAt?
            <==> var segs := ResolveSegments(cwd, p);
                 |segs| >= 2 && segs[0] == "users" && StartsWith(segs[1], "leo")
  {
    AdmitsIff(ResolveSegments(cwd, p));
  }

  /** The parts of `/a/b/../name`. */
  lemma SplitClimb(a: string, b: string, name: string)
    requires IsPlainSegment(a) && IsPlainSegment(b) && IsPlainSegment(name)
    ensures Split("/" + a + "/" + b + "/../" + name, '/') == ["", a, b, "..", name]
  {
    var parts := ["", a, b, "..", name];
    JoinClimb(a, b, name);
    assert SepFree(parts, '/');
    SplitJoin(parts, '/');
  }

  lemma JoinClimb(a: string, b: string, name: string)
    ensures Join(["", a, b, "..", name], '/') == "/" + a + "/" + b + "/../" + name
  {
    var parts := ["", a, b, "..", name];
    assert parts[1..] == [a, b, "..", name];
    assert [a, b, "..", name][1..] == [b, "..", name];
    assert [b, "..", name][1..] == ["..", name];
    assert ["..", name][1..] == [name];
    assert Join(["..", name], '/') == ".." + "/" + name;
    assert Join([b, "..", name], '/') == b + "/" + Join(["..", name], '/');
    assert Join([a, b, "..", name], '/') == a + "/" + Join([b, "..", name], '/');
    assert Join(parts, '/') == "" + "/" + Join([a, b, "..", name], '/');
  }

  /** `..` cancels the segment before it: `/a/b/../name` resolves to
      `/a/name`. */
  lemma ClimbOut(cwd: string, a: string, b: string, name: string)
    requires IsAbsolute(cwd)
    requires IsPlainSegment(a) && IsPlainSegment(b) && IsPlainSegment(name)
    ensures ResolveSegments(cwd, "/" + a + "/" + b + "/../" + name) == [a, name]
  {
    var p := "/" + a + "/" + b + "/../" + name;
    SplitClimb(a, b, name);
    assert Unresolved(cwd, p) == p;
    CollapseClimb(a, b, name);
  }

  /** The stack machine on the parts of `/a/b/../name`. */
  lemma CollapseClimb(a: string, b: string, name: string)
    requires IsPlainSegment(a) && IsPlainSegment(b) && IsPlainSegment(name)
    ensures Collapse([], ["", a, b, "..", name]) == [a, name]
  {
    assert ["", a, b, "..", name] == ["", a, b] + ["..", name];
    CollapseDescend(a, b, ["..", name]);
    assert ["..", name] == [".."] + [name];
    CollapseCons([a, b], "..", [name]);
    assert [a, b][..1] == [a];
    assert [name] == [name] + [];
    CollapseCons([a], name, []);
    assert [a] + [name] == [a, name];
  }

  /** The first three parts of an absolute two-segment prefix. */
  lemma CollapseDescend(a: string, b: string, rest: seq<string>)
    requires IsPlainSegment(a) && IsPlainSegment(b) && SepFree(rest, '/')
    ensures Collapse([], ["", a, b] + rest) == Collapse([a, b], rest)
  {
    assert ["", a, b] + rest == [""] + ([a] + ([b] + rest));
    CollapseCons([], "", [a] + ([b] + rest));
    CollapseCons([], a, [b] + rest);
    assert [] + [a] == [a];
    CollapseCons([a], b, rest);
    assert [a] + [b] == [a, b];
  }

  /** Climbing out of the base with `..` and into a sibling that does not
      begin with `leo` is rejected, in every working directory; for
      instance `/users/leo/../bob`. */
  lemma DotDotEscapeRejected(cwd: string, name: string)
    requires IsAbsolute(cwd)
    requires IsPlainSegment(name) && !StartsWith(name, "leo")
    ensures Decide(cwd, Text("/users/leo/../" + name)) == Rejected("invalid path")
  {
    ClimbOut(cwd, "users", "leo", name);
    assert "/" + "users" + "/" + "leo" + "/../" + name == "/users/leo/../" + name;
    FileAccessIff(cwd, "/users/leo/../" + name);
  }

  /** A path rendered from plain segments is read exactly when the
      segments pass the segment form of the test. */
  lemma RenderedAccess(cwd: string, segs: seq<string>)
    requires IsAbsolute(cwd)
    requires Canonical(segs) && |segs| > 0
    ensures Decide(cwd, Text(FromSegments(segs))).ReadAt?
            <==> |segs| >= 2 && segs[0] == "users" && StartsWith(segs[1], "leo")
    ensures Decide(cwd, Text(FromSegments(segs))).ReadAt? ==>
              Decide(cwd, Text(FromSegments(segs))).path == FromSegments(segs)
  {
    ResolveRendered(cwd, segs);
    AdmitsIff(segs);
  }

  /** The prefix test has no segment boundary: every sibling directory of
      the base whose name begins with `leo`, and everything inside it, is
      readable. */
  lemma SiblingPrefixAdmitted(cwd: string, sibling: string, file: string)
    requires IsAbsolute(cwd)
    requires IsPlainSegment(sibling) && StartsWith(sibling, "leo")
    requires IsPlainSegment(file)
    ensures Decide(cwd, Text("/users/" + sibling)) == ReadAt("/users/" + sibling)
    ensures Decide(cwd, Text("/users/" + sibling + "/" + file))
            == ReadAt("/users/" + sibling + "/" + file)
  {
    var two := ["users", sibling];
    var three := ["users", sibling, file];
    RenderSmall("users", sibling, file);
    assert "/" + "users" + "/" + sibling == "/users/" + sibling;
    assert "/" + "users" + "/" + sibling + "/" + file == "/users/" + sibling + "/" + file;
    RenderedAccess(cwd, two);
    RenderedAccess(cwd, three);
  }

  /** The concrete cases: `/users/leo-evil/x` is read... */
  lemma EvilSiblingRead(cwd: string, evil: string)
    requires IsAbsolute(cwd)
    requires evil == "/users/leo-evil/x"
    ensures Decide(cwd, Text(evil)) == ReadAt(evil)
  {
    var sibling, file := evil[7..15], evil[16..];
    assert sibling == "leo-evil" && file == "x";
    assert evil == "/users/" + sibling + "/" + file;
    SiblingPrefixAdmitted(cwd, sibling, file);
  }

  /** ...and so is `/users/leo2`. */
  lemma NumberedSiblingRead(cwd: string, leo2: string)
    requires IsAbsolute(cwd)
    requires leo2 == "/users/leo2"
    ensures Decide(cwd, Text(leo2)) == ReadAt(leo2)
  {
    var sibling := leo2[7..];
    assert sibling == "leo2";
    assert leo2 == "/users/" + sibling;
    SiblingPrefixAdmitted(cwd, sibling, sibling);
  }

  /** The base directory itself passes the test. */
  lemma BaseDirAdmitted(cwd: string)
    requires IsAbsolute(cwd)
    ensures Decide(cwd, Text(BaseDir)) == ReadAt(BaseDir)
  {
    BaseDirSegments();
    ResolveIdempotent(cwd, BaseDir);
    NormalFromSegments(BaseDir);
    AdmitsIff(["users", "leo"]);
  }

  // ---------------------------------------------------------------------
  // GET /api/tree

  /** The result of `fs.stat` on a non-directory entry. */
  datatype Stat = Size(bytes: nat) | StatFailed(message: string)

  /** One entry of `fs.readdir(dir, { withFileTypes: true })`. */
  datatype Entry = FileEntry(name: string, stat: Stat) | DirEntry(name: string, listing: Listing)

  /** The result of `fs.readdir` on a directory. */
  datatype Listing = Listed(entries: seq<Entry>) | Unreadable(message: string)

  /** Every entry name the operating system reports is a plain segment. */
  predicate WellNamed(l: Listing)
    decreases l
  {
    match l
    case Unreadable(_) => true
    case Listed(es) => WellNamedEntries(es)
  }

  predicate WellNamedEntries(es: seq<Entry>)
    decreases es
  {
    |es| > 0 ==>
      && IsPlainSegment(es[0].name)
      && (es[0].DirEntry? ==> WellNamed(es[0].listing))
      && WellNamedEntries(es[1..])
  }

  /** Every directory in the tree can be listed and every file stat-ed. */
  predicate Readable(l: Listing)
    decreases l
  {
    match l
    case Unreadable(_) => false
    case Listed(es) => ReadableEntries(es)
  }

  predicate ReadableEntries(es: seq<Entry>)
    decreases es
  {
    |es| > 0 ==>
      && (match es[0]
          case FileEntry(_, st) => st.Size?
          case DirEntry(_, l) => Readable(l))
      && ReadableEntries(es[1..])
  }

  /** The nodes reproduce the entries one for one, in order: same names,
      directories as directory nodes with the sub-listing beneath, files
      as file nodes with the stat size. */
  predicate Mirrors(es: seq<Entry>, nodes: seq<Node>)
    decreases es
  {
    && |es| == |nodes|
    && (|es| > 0 ==>
          && nodes[0].name == es[0].name
          && (match es[0]
              case FileEntry(_, st) =>
                !nodes[0].isDirectory && st.Size? && nodes[0].size == Some(st.bytes)
              case DirEntry(_, l) =>
                nodes[0].isDirectory && l.Listed? && nodes[0].children.Children?
                && Mirrors(l.entries, nodes[0].children.items))
          && Mirrors(es[1..], nodes[1..]))
  }

  /** The shape of a JSON tree below directory `dir`: each node's path is
      its parent's path, a slash and its name; directory nodes carry
      children and no size; file nodes carry a size and no children. */
  predicate Shaped(dir: string, nodes: seq<Node>)
    decreases nodes
  {
    |nodes| > 0 ==>
      && nodes[0].path == dir + "/" + nodes[0].name
      && (nodes[0].isDirectory ==>
            nodes[0].size.None? && nodes[0].children.Children?
            && Shaped(nodes[0].path, nodes[0].children.items))
      && (!nodes[0].isDirectory ==> nodes[0].size.Some? && nodes[0].children.NoChildren?)
      && Shaped(dir, nodes[1..])
  }

  /** The error messages of every `readdir` and `stat` that fails anywhere
      in the listing. */
  function Failures(l: Listing): set<string>
    decreases l
  {
    match l
    case Unreadable(m) => {m}
    case Listed(es) => EntryFailures(es)
  }

  function EntryFailures(es: seq<Entry>): set<string>
    decreases es
  {
    if |es| == 0 then {}
    else
      (match es[0]
       case FileEntry(_, st) => if st.StatFailed? then {st.message} else {}
       case DirEntry(_, sub) => Failures(sub))
      + EntryFailures(es[1..])
  }

  /** `buildTree(dir)`: the first failure met (in listing order) aborts the
      whole listing, and its message is the error. */
  function BuildTree(dir: string, l: Listing): (r: Result<seq<Node>>)
    requires IsNormalAbsolute(dir) && dir != "/"
    requires WellNamed(l)
    ensures r.Ok? <==> Readable(l)
    ensures r.Ok? ==> Mirrors(l.entries, r.value) && Shaped(dir, r.value)
    ensures r.Err? ==> r.error in Failures(l)
    decreases l
  {
    match l
    case Unreadable(m) => Err(m)
    case Listed(es) => BuildEntries(dir, es)
  }

  function BuildEntries(dir: string, es: seq<Entry>): (r: Result<seq<Node>>)
    requires IsNormalAbsolute(dir) && dir != "/"
    requires WellNamedEntries(es)
    ensures r.Ok? <==> ReadableEntries(es)
    ensures r.Ok? ==> Mirrors(es, r.value) && Shaped(dir, r.value)
    ensures r.Err? ==> r.error in EntryFailures(es)
    decreases es
  {
    if |es| == 0 then Ok([])
    else
      var fullPath := JoinPath(dir, es[0].name);
      var first: Result<Node> :=
        match es[0]
        case FileEntry(name, st) =>
          (match st
           case Size(n) => Ok(Node(name, fullPath, false, Some(n), NoChildren))
           case StatFailed(m) => Err(m))
        case DirEntry(name, sub) =>
          (match BuildTree(fullPath, sub)
           case Ok(children) => Ok(Node(name, fullPath, true, None, Children(children)))
           case Err(m) => Err(m));
      var rest := BuildEntries(dir, es[1..]);
      if first.Err? then Err(first.error)
      else if rest.Err? then Err(rest.error)
      else
        var nodes := [first.value] + rest.value;
        assert nodes[1..] == rest.value;
        Ok(nodes)
  }

  /** Every node's path extends the path of the directory it was listed
      from, and hence the path of every ancestor. */
  lemma {:induction false} ShapedPathsBelow(dir: string, nodes: seq<Node>)
    requires Shaped(dir, nodes)
    ensures forall q :: q in Paths(nodes) ==> StartsWith(q, dir + "/")
    decreases nodes
  {
    if |nodes| > 0 {
      var n := nodes[0];
      ShapedPathsBelow(dir, nodes[1..]);
      if n.children.Children? && n.isDirectory {
        ShapedPathsBelow(n.path, n.children.items);
        forall q | q in Paths(n.children.items)
          ensures StartsWith(q, dir + "/")
        {
          assert StartsWith(q, n.path + "/");
          assert q[..|dir + "/"|] == (n.path + "/")[..|dir + "/"|];
        }
      }
    }
  }

  /** The `/api/tree` response: a JSON array, or a 500 with the message. */
  datatype TreeResponse = TreeJson(roots: seq<Node>) | TreeError(status: int, error: string)

  /** `GET /api/tree`: one root node for the base directory, named after
      its last segment, with the recursive listing as its children. */
  function ApiTree(l: Listing): (r: TreeResponse)
    requires WellNamed(l)
    ensures r.TreeJson? <==> Readable(l)
    ensures r.TreeError? ==> r.status == 500 && r.error in Failures(l)
    ensures r.TreeJson? ==>
              && |r.roots| == 1
              && r.roots[0].name == "leo"
              && r.roots[0].path == BaseDir
              && r.roots[0].isDirectory
              && r.roots[0].children.Children?
              && Mirrors(l.entries, r.roots[0].children.items)
              && Shaped(BaseDir, r.roots[0].children.items)
  {
    BaseDirSegments();
    match BuildTree(BaseDir, l)
    case Ok(children) => TreeJson([Node(BaseName(BaseDir), BaseDir, true, None, Children(children))])
    case Err(m) => TreeError(500, m)
  }

  /** Every path in a successful `/api/tree` response is the base
      directory or lies below it. */
  lemma TreePathsInsideBase(l: Listing)
    requires WellNamed(l)
    ensures ApiTree(l).TreeJson? ==>
              forall q :: q in Paths(ApiTree(l).roots) ==> q == BaseDir || StartsWith(q, BaseDir + "/")
  {
    var r := ApiTree(l);
    if r.TreeJson? {
      var root := r.roots[0];
      ShapedPathsBelow(BaseDir, root.children.items);
      assert r.roots[1..] == [];
      assert Paths(r.roots) == {BaseDir} + Paths(root.children.items);
    }
  }
}

=== FILE: strings.dfy ===
/** String operations with the meaning JavaScript gives them: `split` and
    `join` on a one-character separator, `pop` of the last split part,
    `toLowerCase` (ASCII letters only), `trim`, `startsWith` and `endsWith`.
    Strings are sequences of characters. */
module Strings {

  /** `s.startsWith(prefix)` */
  predicate StartsWith(s: string, prefix: string) {
    |prefix| <= |s| && s[..|prefix|] == prefix
  }

  /** `s.endsWith(suffix)` */
  predicate EndsWith(s: string, suffix: string) {
    |suffix| <= |s| && s[|s| - |suffix|..] == suffix
  }

  /** True when no part contains the separator. */
  predicate SepFree(parts: seq<string>, sep: char) {
    forall i :: 0 <= i < |parts| ==> sep !in parts[i]
  }

  /** `s.split(sep)`: the runs of `s` between separators, empty runs
      included, so the result is never an empty list. */
  function Split(s: string, sep: char): (parts: seq<string>)
    ensures |parts| >= 1
    ensures SepFree(parts, sep)
    decreases |s|
  {
    if |s| == 0 then [""]
    else
      var rest := Split(s[1..], sep);
      if s[0] == sep then [""] + rest
      else [[s[0]] + rest[0]] + rest[1..]
  }

  /** `parts.join(sep)` */
  function Join(parts: seq<string>, sep: char): string
  {
    if |parts| == 0 then ""
    else if |parts| == 1 then parts[0]
    else parts[0] + [sep] + Join(parts[1..], sep)
  }

  /** `s.split(sep).pop()`: the split list is never empty, so this is
      always a string. */
  function LastSegment(s: string, sep: char): string
  {
    var parts := Split(s, sep);
    parts[|parts| - 1]
  }

  /** Joining the parts of a split gives back the original string. */
  lemma {:induction false} JoinSplit(s: string, sep: char)
    ensures Join(Split(s, sep), sep) == s
    decreases |s|
  {
    if |s| > 0 {
      var rest := Split(s[1..], sep);
      JoinSplit(s[1..], sep);
      if s[0] == sep {
        assert ([""] + rest)[1..] == rest;
      } else if |rest| > 1 {
        var parts := [[s[0]] + rest[0]] + rest[1..];
        assert parts[1..] == rest[1..];
        assert Join(rest, sep) == rest[0] + [sep] + Join(rest[1..], sep);
        assert s == [s[0]] + s[1..];
      } else {
        assert s == [s[0]] + s[1..];
      }
    }
  }

  /** A separator-free string splits into itself alone. */
  lemma {:induction false} SplitSepFree(w: string, sep: char)
    requires sep !in w
    ensures Split(w, sep) == [w]
    decreases |w|
  {
    if |w| > 0 {
      assert sep !in w[1..];
      SplitSepFree(w[1..], sep);
      assert [w[0]] + w[1..] == w;
    }
  }

  /** Splitting around one separator concatenates the two splits. */
  lemma {:induction false} SplitAround(a: string, sep: char, b: string)
    ensures Split(a + [sep] + b, sep) == Split(a, sep) + Split(b, sep)
    decreases |a|
  {
    var s := a + [sep] + b;
    if |a| == 0 {
      assert s == [sep] + b;
      assert s[1..] == b;
    } else {
      assert s[1..] == a[1..] + [sep] + b;
      SplitAround(a[1..], sep, b);
    }
  }

  /** Splitting a join of separator-free parts gives the parts back. */
  lemma {:induction false} SplitJoin(parts: seq<string>, sep: char)
    requires |parts| >= 1
    requires SepFree(parts, sep)
    ensures Split(Join(parts, sep), sep) == parts
    decreases |parts|
  {
    SplitSepFree(parts[0], sep);
    if |parts| > 1 {
      assert SepFree(parts[1..], sep) by {
        forall i | 0 <= i < |parts[1..]|
          ensures sep !in parts[1..][i]
        {
          assert parts[1..][i] == parts[i + 1];
        }
      }
      SplitJoin(parts[1..], sep);
      SplitAround(parts[0], sep, Join(parts[1..], sep));
      assert [parts[0]] + parts[1..] == parts;
    }
  }

  /** Appending one part to a non-empty list appends a separator and
      that part to the join. */
  lemma {:induction false} JoinSnoc(parts: seq<string>, x: string, sep: char)
    requires |parts| >= 1
    ensures Join(parts + [x], sep) == Join(parts, sep) + [sep] + x
    decreases |parts|
  {
    if |parts| > 1 {
      assert (parts + [x])[1..] == parts[1..] + [x];
      JoinSnoc(parts[1..], x, sep);
    }
  }

  /** The last segment is a separator-free suffix of `s`, and it is either
      all of `s` or directly preceded by a separator. These three facts fix
      it uniquely. */
  lemma LastSegmentIsSuffix(s: string, sep: char)
    ensures sep !in LastSegment(s, sep)
    ensures EndsWith(s, LastSegment(s, sep))
    ensures LastSegment(s, sep) == s
            || s[|s| - |LastSegment(s, sep)| - 1] == sep
  {
    var i := LastSepIndex(s, sep);
    if i < 0 {
      SplitSepFree(s, sep);
    } else {
      assert s == s[..i] + [sep] + s[i + 1..];
      SplitAround(s[..i], sep, s[i + 1..]);
      SplitSepFree(s[i + 1..], sep);
    }
  }

  /** The position of the last separator in `s`, or -1 when there is none. */
  function LastSepIndex(s: string, sep: char): (i: int)
    ensures -1 <= i < |s|
    ensures i >= 0 ==> s[i] == sep && sep !in s[i + 1..]
    ensures i < 0 ==> sep !in s
  {
    if |s| == 0 then -1
    else if s[|s| - 1] == sep then |s| - 1
    else
      var j := LastSepIndex(s[..|s| - 1], sep);
      assert j >= 0 ==> s[j + 1..] == s[..|s| - 1][j + 1..] + [s[|s| - 1]];
      assert j < 0 ==> s == s[..|s| - 1] + [s[|s| - 1]];
      j
  }

  /** Whatever precedes the last separator does not affect the last
      segment. */
  lemma LastSegmentAfterSep(a: string, sep: char, b: string)
    ensures LastSegment(a + [sep] + b, sep) == LastSegment(b, sep)
  {
    SplitAround(a, sep, b);
  }

  /** A separator-free string is its own last segment. */
  lemma LastSegmentSepFree(w: string, sep: char)
    requires sep !in w
    ensures LastSegment(w, sep) == w
  {
    SplitSepFree(w, sep);
  }

  /** The join of a non-empty list is its first part, followed by a
      separator and the join of the rest when there is a rest. */
  lemma JoinHead(parts: seq<string>, sep: char)
    requires |parts| >= 1
    ensures |parts| == 1 ==> Join(parts, sep) == parts[0]
    ensures |parts| > 1 ==> Join(parts, sep) == parts[0] + [sep] + Join(parts[1..], sep)
  {
  }

  /** A common first character does not affect a prefix test. */
  lemma StartsWithCons(c: char, s: string, prefix: string)
    ensures StartsWith([c] + s, [c] + prefix) <==> StartsWith(s, prefix)
  {
    if |prefix| <= |s| {
      assert ([c] + s)[..|prefix| + 1] == [c] + s[..|prefix|];
      if ([c] + s)[..|prefix| + 1] == [c] + prefix {
        assert s[..|prefix|] == ([c] + s)[..|prefix| + 1][1..];
      }
    }
  }

  /** A separator-free prefix of a join lies inside the first part. */
  lemma JoinStartsWithFree(parts: seq<string>, sep: char, w: string)
    requires |parts| >= 1 && SepFree(parts, sep)
    requires sep !in w
    ensures StartsWith(Join(parts, sep), w) <==> StartsWith(parts[0], w)
  {
    var j := Join(parts, sep);
    var p0 := parts[0];
    JoinHead(parts, sep);
    if |w| <= |p0| {
      assert j[..|w|] == p0[..|w|];
    } else if |parts| > 1 && |w| <= |j| {
      assert j[..|w|][|p0|] == sep;
      assert w[|p0|] != sep;
    }
  }

  /** A join starts with `w`, a separator and `rest` (with `w`
      separator-free) exactly when its first part is `w` and the join of
      the remaining parts starts with `rest`. */
  lemma JoinStartsWithWord(parts: seq<string>, sep: char, w: string, rest: string)
    requires |parts| >= 1 && SepFree(parts, sep)
    requires sep !in w
    ensures StartsWith(Join(parts, sep), w + [sep] + rest)
            <==> parts[0] == w && |parts| > 1 && StartsWith(Join(parts[1..], sep), rest)
  {
    var j := Join(parts, sep);
    var p0 := parts[0];
    var t := w + [sep] + rest;
    JoinHead(parts, sep);
    JoinStartsWithFree(parts, sep, w);
    if p0 == w && |parts| > 1 {
      var tail := Join(parts[1..], sep);
      assert j == w + [sep] + tail;
      if |rest| <= |tail| {
        assert j[..|t|] == w + [sep] + tail[..|rest|];
        assert j[..|t|][|w| + 1..] == tail[..|rest|];
        assert t[|w| + 1..] == rest;
      }
    } else if StartsWith(p0, w) && |p0| > |w| && |t| <= |j| {
      assert j[..|t|][|w|] == p0[|w|] != sep;
    } else if p0 != w && |t| <= |j| {
      assert j[..|t|][..|w|] == j[..|w|];
      assert t[..|w|] == w;
    }
  }

  /** `A`-`Z` or `a`-`z` */
  predicate IsAsciiLetter(c: char) {
    'A' <= c <= 'Z' || 'a' <= c <= 'z'
  }

  /** `toLowerCase` on one character; only ASCII letters are mapped. */
  function LowerChar(c: char): char {
    if 'A' <= c <= 'Z' then (c as int + 32) as char else c
  }

  /** `s.toLowerCase()`, ASCII letters only. */
  function ToLower(s: string): (r: string)
    ensures |r| == |s|
    ensures forall i :: 0 <= i < |s| ==> r[i] == LowerChar(s[i])
  {
    if |s| == 0 then "" else [LowerChar(s[0])] + ToLower(s[1..])
  }

  /** Lower-casing a second time changes nothing. */
  lemma ToLowerIdempotent(s: string)
    ensures ToLower(ToLower(s)) == ToLower(s)
  {
  }

  /** Every part lower-cased. */
  function LowerAll(parts: seq<string>): (r: seq<string>)
    ensures |r| == |parts|
    ensures forall i :: 0 <= i < |parts| ==> r[i] == ToLower(parts[i])
  {
    if |parts| == 0 then [] else [ToLower(parts[0])] + LowerAll(parts[1..])
  }

  /** Lower-casing commutes with splitting on a separator that is not an
      ASCII letter. */
  lemma {:induction false} SplitToLower(s: string, sep: char)
    requires !IsAsciiLetter(sep)
    ensures Split(ToLower(s), sep) == LowerAll(Split(s, sep))
    decreases |s|
  {
    if |s| > 0 {
      var t := ToLower(s);
      assert t[0] == LowerChar(s[0]) && t[1..] == ToLower(s[1..]);
      SplitToLower(s[1..], sep);
      if s[0] == sep {
        SplitToLowerAtSep(s, sep);
      } else {
        SplitToLowerAtChar(s, sep);
      }
    }
  }

  lemma SplitToLowerAtSep(s: string, sep: char)
    requires |s| > 0 && s[0] == sep && !IsAsciiLetter(sep)
    requires Split(ToLower(s[1..]), sep) == LowerAll(Split(s[1..], sep))
    ensures Split(ToLower(s), sep) == LowerAll(Split(s, sep))
  {
    var t := ToLower(s);
    assert t[0] == sep && t[1..] == ToLower(s[1..]);
    var rest := Split(s[1..], sep);
    assert Split(s, sep) == [""] + rest;
    assert LowerAll([""] + rest) == [""] + LowerAll(rest) by {
      assert ([""] + rest)[1..] == rest;
    }
  }

  lemma SplitToLowerAtChar(s: string, sep: char)
    requires |s| > 0 && s[0] != sep && !IsAsciiLetter(sep)
    requires Split(ToLower(s[1..]), sep) == LowerAll(Split(s[1..], sep))
    ensures Split(ToLower(s), sep) == LowerAll(Split(s, sep))
  {
    var t := ToLower(s);
    assert t[0] == LowerChar(s[0]) != sep && t[1..] == ToLower(s[1..]);
    var rest, lrest := Split(s[1..], sep), Split(t[1..], sep);
    var head := [s[0]] + rest[0];
    assert Split(s, sep) == [head] + rest[1..];
    assert Split(t, sep) == [[t[0]] + lrest[0]] + lrest[1..];
    assert ToLower(head) == [t[0]] + lrest[0] by {
      assert head[1..] == rest[0];
    }
    assert LowerAll([head] + rest[1..]) == [ToLower(head)] + LowerAll(rest[1..]) by {
      assert ([head] + rest[1..])[1..] == rest[1..];
    }
    assert LowerAll(rest)[1..] == LowerAll(rest[1..]);
  }

  /** The last segment of the lower-cased string is the lower-cased last
      segment. */
  lemma LastSegmentToLower(s: string, sep: char)
    requires !IsAsciiLetter(sep)
    ensures LastSegment(ToLower(s), sep) == ToLower(LastSegment(s, sep))
  {
    SplitToLower(s, sep);
  }

  /** The characters JavaScript's `trim` removes: the WhiteSpace and
      LineTerminator productions of ECMAScript (tab, vertical tab, form
      feed, space, no-break space, byte-order mark, the Unicode space
      separators, and the four line terminators). */
  predicate IsJsWhitespace(c: char) {
    || c == '\t' || c == '\n' || c == '\U{000B}' || c == '\U{000C}' || c == '\r'
    || c == ' ' || c == '\U{00A0}' || c == '\U{1680}'
    || ('\U{2000}' <= c <= '\U{200A}')
    || c == '\U{2028}' || c == '\U{2029}' || c == '\U{202F}' || c == '\U{205F}'
    || c == '\U{3000}' || c == '\U{FEFF}'
  }

  predicate AllWhitespace(s: string) {
    forall i :: 0 <= i < |s| ==> IsJsWhitespace(s[i])
  }

  /** Drops leading whitespace. */
  function TrimStart(s: string): (r: string)
    ensures |r| <= |s| && r == s[|s| - |r|..]
    ensures AllWhitespace(s[..|s| - |r|])
    ensures |r| > 0 ==> !IsJsWhitespace(r[0])
    decreases |s|
  {
    if |s| > 0 && IsJsWhitespace(s[0]) then TrimStart(s[1..]) else s
  }

  /** Drops trailing whitespace. */
  function TrimEnd(s: string): (r: string)
    ensures |r| <= |s| && r == s[..|r|]
    ensures AllWhitespace(s[|r|..])
    ensures |r| > 0 ==> !IsJsWhitespace(r[|r| - 1])
    decreases |s|
  {
    if |s| > 0 && IsJsWhitespace(s[|s| - 1]) then TrimEnd(s[..|s| - 1]) else s
  }

  /** `s.trim()` */
  function Trim(s: string): string {
    TrimEnd(TrimStart(s))
  }

  /** `s.trim()` is empty exactly when every character of `s` is
      whitespace; otherwise it starts and ends with a non-blank. */
  lemma TrimEmptyIff(s: string)
    ensures Trim(s) == "" <==> AllWhitespace(s)
    ensures Trim(s) != "" ==> !IsJsWhitespace(Trim(s)[0])
                              && !IsJsWhitespace(Trim(s)[|Trim(s)| - 1])
  {
    var t := TrimStart(s);
    var r := Trim(s);
    if r == "" {
      assert t[|r|..] == t;
      assert s == s[..|s| - |t|] + t;
    }
    if AllWhitespace(s) {
      TrimStartAllWhitespace(s);
    }
    if r != "" {
      assert r == t[..|r|];
      assert r[0] == t[0];
    }
  }

  lemma {:induction false} TrimStartAllWhitespace(s: string)
    requires AllWhitespace(s)
    ensures TrimStart(s) == ""
    decreases |s|
  {
    if |s| > 0 {
      assert AllWhitespace(s[1..]);
      TrimStartAllWhitespace(s[1..]);
    }
  }
}

=== FILE: supabase_paths.dfy ===
/** The path arithmetic of the Supabase-backed file API: the path of a
    created file or folder, the `name` column written on save, and the new
    path after a rename or a move. The database calls themselves are not
    part of the model; only the rows and paths they are given are. */
module SupabasePaths {
  import opened Options
  import opened Strings

  /** `parent ? `${parent}/${name}` : name`: an empty parent means the
      top level. */
  function ChildPath(parent: string, name: string): (path: string)
    ensures parent == "" ==> path == name
    ensures parent != "" ==> StartsWith(path, parent + "/") && EndsWith(path, name)
    ensures |path| == |name| + (if parent == "" then 0 else |parent| + 1)
  {
    if parent != "" then parent + "/" + name else name
  }

  /** A slash-free name is appended as exactly one more segment, so it
      becomes the last segment of the child path. */
  lemma ChildPathSegments(parent: string, name: string)
    requires '/' !in name
    ensures parent != "" ==> Split(ChildPath(parent, name), '/') == Split(parent, '/') + [name]
    ensures LastSegment(ChildPath(parent, name), '/') == name
  {
    SplitSepFree(name, '/');
    SplitAround(parent, '/', name);
  }

  lemma ChildPathLast(parent: string, name: string)
    ensures '/' !in name ==> LastSegment(ChildPath(parent, name), '/') == name
  {
    if '/' !in name {
      ChildPathSegments(parent, name);
    }
  }

  /** The row inserted into the `files` table. */
  datatype FileRow = FileRow(path: string, name: string, content: Option<string>, fileType: string)

  /** `createFile(parent, name)`: an empty file row. */
  function CreateFileRow(parent: string, name: string): (row: FileRow)
    ensures row.fileType == "file" && row.content == Some("")
    ensures row.name == name
    ensures '/' !in name ==> LastSegment(row.path, '/') == row.name
  {
    ChildPathLast(parent, name);
    FileRow(ChildPath(parent, name), name, Some(""), "file")
  }

  /** `createFolder(parent, name)`: a directory row without content. */
  function CreateFolderRow(parent: string, name: string): (row: FileRow)
    ensures row.fileType == "directory" && row.content == None
    ensures row.name == name
    ensures '/' !in name ==> LastSegment(row.path, '/') == row.name
  {
    ChildPathLast(parent, name);
    FileRow(ChildPath(parent, name), name, None, "directory")
  }

  /** `path.split('/').pop() || path`: the last segment, or the whole path
      when the last segment is empty (an empty path or a trailing slash). */
  function SaveName(path: string): (name: string)
    ensures EndsWith(path, name)
    ensures name == path || ('/' !in name && name != "")
    ensures (path == "" || path[|path| - 1] == '/') <==> name == path && LastSegment(path, '/') == ""
    ensures LastSegment(path, '/') != "" ==> name == LastSegment(path, '/')
  {
    LastSegmentIsSuffix(path, '/');
    var last := LastSegment(path, '/');
    if last != "" then last else path
  }

  /** Saving a file created under any parent with a non-empty slash-free
      name writes back the name it was created with. */
  lemma SaveNameOfCreated(parent: string, name: string)
    requires '/' !in name && name != ""
    ensures SaveName(CreateFileRow(parent, name).path) == name
  {
    ChildPathSegments(parent, name);
  }

  /** `renameItem`: the last `/`-part of the path replaced by `newName`.
      The result ends with `newName`; a path of one part becomes `newName`
      itself, and any longer path keeps a slash before it. */
  function RenamePath(path: string, newName: string): (newPath: string)
    ensures EndsWith(newPath, newName)
    ensures |Split(path, '/')| == 1 ==> newPath == newName
    ensures |Split(path, '/')| > 1 ==> EndsWith(newPath, "/" + newName)
  {
    var parts := Split(path, '/');
    SnocEnds(parts[..|parts| - 1], newName);
    Join(parts[..|parts| - 1] + [newName], '/')
  }

  /** How a join ends when one more part is appended. */
  lemma SnocEnds(prefix: seq<string>, name: string)
    ensures EndsWith(Join(prefix + [name], '/'), name)
    ensures prefix == [] ==> Join(prefix + [name], '/') == name
    ensures prefix != [] ==> EndsWith(Join(prefix + [name], '/'), "/" + name)
  {
    if prefix == [] {
      assert prefix + [name] == [name];
    } else {
      JoinSnoc(prefix, name, '/');
      var r := Join(prefix, '/') + "/" + name;
      assert r[|r| - |name|..] == name;
      assert r[|r| - |name| - 1..] == "/" + name;
    }
  }

  /** A path splits into one part exactly when it has no slash. */
  lemma OnePartIff(path: string)
    ensures |Split(path, '/')| == 1 <==> '/' !in path
  {
    var parts := Split(path, '/');
    JoinSplit(path, '/');
    if |parts| == 1 {
      assert path == parts[0];
    } else {
      assert path == parts[0] + "/" + Join(parts[1..], '/');
      assert path[|parts[0]|] == '/';
    }
  }

  /** The renamed path keeps every part but the last and replaces the last
      by the parts of `newName`, which is not validated: a slash inside it
      is spliced in and adds segments. */
  lemma RenameSegments(path: string, newName: string)
    ensures Split(RenamePath(path, newName), '/')
            == Split(path, '/')[..|Split(path, '/')| - 1] + Split(newName, '/')
  {
    var parts := Split(path, '/');
    var prefix := parts[..|parts| - 1];
    assert SepFree(prefix, '/');
    SplitSnoc(prefix, newName);
  }

  /** Splitting a join of separator-free parts with one more part
      appended gives those parts followed by the split of the new one. */
  lemma SplitSnoc(prefix: seq<string>, newName: string)
    requires SepFree(prefix, '/')
    ensures Split(Join(prefix + [newName], '/'), '/') == prefix + Split(newName, '/')
  {
    if |prefix| == 0 {
      assert prefix + [newName] == [newName];
    } else {
      JoinSnoc(prefix, newName, '/');
      SplitAround(Join(prefix, '/'), '/', newName);
      SplitJoin(prefix, '/');
    }
  }

  /** With a slash-free new name only the last segment changes, and it
      becomes `newName`. */
  lemma RenameChangesOnlyLast(path: string, newName: string)
    requires '/' !in newName
    ensures |Split(RenamePath(path, newName), '/')| == |Split(path, '/')|
    ensures forall i :: 0 <= i < |Split(path, '/')| - 1 ==>
              Split(RenamePath(path, newName), '/')[i] == Split(path, '/')[i]
    ensures LastSegment(RenamePath(path, newName), '/') == newName
  {
    var parts, renamed := Split(path, '/'), Split(RenamePath(path, newName), '/');
    RenameSegments(path, newName);
    SplitSepFree(newName, '/');
    assert renamed == parts[..|parts| - 1] + [newName];
  }

  /** A path with a slash keeps one right before the new name. */
  lemma RenameKeepsSlash(path: string, newName: string)
    requires '/' in path
    ensures EndsWith(RenamePath(path, newName), "/" + newName)
  {
    OnePartIff(path);
  }

  /** A path without a slash is renamed to exactly `newName`. */
  lemma RenameTopLevel(path: string, newName: string)
    requires '/' !in path
    ensures RenamePath(path, newName) == newName
  {
    SplitSepFree(path, '/');
    assert Split(path, '/')[..0] + [newName] == [newName];
  }

  /** Renaming back to the old last segment restores the path. */
  lemma RenameRoundTrip(path: string, newName: string)
    requires '/' !in newName
    ensures RenamePath(RenamePath(path, newName), LastSegment(path, '/')) == path
  {
    var parts := Split(path, '/');
    var r := RenamePath(path, newName);
    RenameChangesOnlyLast(path, newName);
    var rparts := Split(r, '/');
    assert rparts[..|rparts| - 1] == parts[..|parts| - 1];
    assert rparts[..|rparts| - 1] + [parts[|parts| - 1]] == parts;
    JoinSplit(path, '/');
  }

  /** `moveItem`: the last segment of the old path placed under `target`. */
  function MovePath(path: string, target: string): (newPath: string)
    ensures LastSegment(newPath, '/') == LastSegment(path, '/')
    ensures target == "" ==> newPath == LastSegment(path, '/')
    ensures target != "" ==> newPath == target + "/" + LastSegment(path, '/')
  {
    var fileName := LastSegment(path, '/');
    LastSegmentIsSuffix(path, '/');
    ChildPathSegments(target, fileName);
    ChildPath(target, fileName)
  }

  /** Moving an item into the directory it is already in gives back its
      own path. */
  lemma MoveIntoOwnParent(path: string)
    requires |Split(path, '/')| >= 2
    requires Join(Split(path, '/')[..|Split(path, '/')| - 1], '/') != ""
    ensures MovePath(path, Join(Split(path, '/')[..|Split(path, '/')| - 1], '/')) == path
  {
    var parts := Split(path, '/');
    var prefix := parts[..|parts| - 1];
    JoinSnoc(prefix, parts[|parts| - 1], '/');
    assert prefix + [parts[|parts| - 1]] == parts;
    JoinSplit(path, '/');
  }
}

=== FILE: token_store.dfy ===
/** The bearer token of the API client module: a module-level variable
    mirrored into the browser's storage under the key `token`. Storage
    is abstract: `NoStorage` when `localStorage` does not exist,
    otherwise the value saved under the key, if any. */
module TokenStore {
  import opened Options

  datatype Storage = NoStorage | Stored(saved: Option<string>)

  datatype Client = Client(token: string, storage: Storage)

  /** Module start-up: a saved value is adopted only when it is truthy,
      that is, non-empty. Storage itself is not touched. */
  function Load(storage: Storage): (c: Client)
    ensures c.storage == storage
    ensures storage.Stored? && storage.saved.Some? && storage.saved.value != "" ==> c.token == storage.saved.value
    ensures !(storage.Stored? && storage.saved.Some?) ==> c.token == ""
    ensures c.token == "" || (storage.Stored? && storage.saved == Some(c.token))
  {
    if storage.Stored? && storage.saved.Some? && storage.saved.value != "" then Client(storage.saved.value, storage)
    else Client("", storage)
  }

  function SetToken(c: Client, t: string): (r: Client)
    ensures GetToken(r) == t
    ensures c.storage.NoStorage? <==> r.storage.NoStorage?
    ensures r.storage.Stored? ==> r.storage.saved == Some(t)
  {
    Client(t, if c.storage.Stored? then Stored(Some(t)) else NoStorage)
  }

  function GetToken(c: Client): string {
    c.token
  }

  function ClearToken(c: Client): (r: Client)
    ensures GetToken(r) == ""
    ensures c.storage.NoStorage? <==> r.storage.NoStorage?
    ensures r.storage.Stored? ==> r.storage.saved.None?
  {
    Client("", if c.storage.Stored? then Stored(None) else NoStorage)
  }

  /** Token and storage agree: whatever a reload would adopt is the
      token in memory. */
  predicate Mirrored(c: Client) {
    c.storage.Stored? ==> Load(c.storage).token == c.token
  }

  /** Setting and clearing keep memory and storage in step, so a reload
      after either gives back the same token, the empty one included. */
  lemma SetAndClearKeepMirror(c: Client, t: string)
    ensures Mirrored(SetToken(c, t)) && Mirrored(ClearToken(c))
    ensures c.storage.Stored? ==> Load(SetToken(c, t).storage).token == t
    ensures Load(ClearToken(c).storage).token == ""
  {
  }

  /** Without storage the token still works in memory, but a reload
      forgets it. */
  lemma WithoutStorage(t: string)
    ensures GetToken(SetToken(Load(NoStorage), t)) == t
    ensures GetToken(ClearToken(SetToken(Load(NoStorage), t))) == ""
    ensures Load(SetToken(Load(NoStorage), t).storage).token == ""
  {
  }

  /** The requests the client module builds. Only `Login` belongs to
      the authentication API; the rest are the user and file calls. */
  datatype Endpoint =
    | Login
    | GetCurrentUser | UpdateUser
    | GetTree | GetUsage | GetFile | SaveFile | CreateFile | CreateFolder
    | DeleteItem | RenameItem | UploadFiles | MoveItem | DownloadItem

  /** The calls that send a JSON body. */
  predicate SendsJson(e: Endpoint) {
    e in {Login, UpdateUser, SaveFile, CreateFile, CreateFolder, RenameItem, MoveItem}
  }

  datatype Header = Header(name: string, value: string)

  /** The headers of a request, built when it is sent: the token is the
      current one, not the one at start-up. */
  function Headers(c: Client, e: Endpoint): (hs: seq<Header>)
    ensures e != Login <==> Header("Authorization", "Bearer " + GetToken(c)) in hs
    ensures forall h :: h in hs && h.name == "Authorization" ==> h.value == "Bearer " + GetToken(c)
    ensures SendsJson(e) <==> Header("Content-Type", "application/json") in hs
  {
    (if SendsJson(e) then [Header("Content-Type", "application/json")] else [])
    + (if e == Login then [] else [Header("Authorization", "Bearer " + c.token)])
  }

  /** After a clear the calls still carry the header, with an empty
      token after `Bearer `. */
  lemma ClearedTokenStillSent(c: Client, e: Endpoint)
    requires e != Login
    ensures Header("Authorization", "Bearer ") in Headers(ClearToken(c), e)
  {
    assert "Bearer " + "" == "Bearer ";
  }
}

=== FILE: tree_nodes.dfy ===
/** The file-tree node that `/api/tree` sends as JSON and the file tree
    renders: `{ name, path, isDirectory, size?, children? }`. */
module TreeNodes {
  import opened Options

  /** The optional `children` array of a node. */
  datatype Children = NoChildren | Children(items: seq<Node>)

  datatype Node = Node(
    name: string,
    path: string,
    isDirectory: bool,
    size: Option<nat>,
    children: Children)

  /** Every path occurring in a forest of nodes. */
  function Paths(nodes: seq<Node>): set<string>
    decreases nodes
  {
    if |nodes| == 0 then {}
    else
      {nodes[0].path}
      + (if nodes[0].children.Children? then Paths(nodes[0].children.items) else {})
      + Paths(nodes[1..])
  }
}
